=== FILE: README.md ===
# Hash map and hash set with chained buckets

A model, in Dafny, of a small JavaScript library. The library has two
classes: `HashMap`, a string-to-string hash table, and `HashSet`, a set of
strings. Both hash a key with a polynomial rolling hash reduced modulo the
capacity. Each bucket slot holds a singly linked chain of `Node` cells, and
a slot is allocated lazily by `at(key)`. When `size / capacity` exceeds the
load factor, the table doubles its capacity and re-inserts every entry.

The two classes are near-duplicates, so the model has one engine for both:

- `Options`, `Text` and `Maps` (text.dfy): the null-or-value type, the text
  coercion `String(v)`, `Array.join`, and facts about map union.
- `Hashing` (hashing.dfy): `hash(key)` on UTF-16 code units, plus a
  reference definition (the unreduced polynomial) it is proved against.
- `Capacity` (capacity.dfy): the `isLoaded` test on a rational load factor,
  and the capacity a run of doublings settles on.
- `Nodes` and `Chains` (chains.dfy): `Node` and `LinkedList`. A chain is a
  sequence of cells, head first. Each operation is also stated against the
  chain's key-to-value map.
- `HashTables` (tables.dfy): the shared engine. A `Table` has a `kind`
  (`MapKind` or `SetKind`), a load factor, a capacity, a size, and a
  sequence of `Option<Chain>` slots. It covers `at`, insertion with resize,
  `get`, `has`, `remove`, `clear`, `length`, `keys`, `values` and
  `entries`. Every operation is stated against the abstract view
  `Contents(t)`: the map from each stored key to its stored text.
- `HashMaps` and `HashSets` (hash_map.dfy, hash_set.dfy): `set`, `add` and
  the two `toString` renderings, each shown to list every stored entry.
  They also hold concrete behaviours that follow from the library's defaults:
  twelve entries fit in 16 buckets, and a thirteenth distinct key doubles
  the capacity to 32 with every key still found.

Each public operation keeps the table invariant `Valid`:

- `buckets.length == capacity`;
- every cell sits in the bucket its key hashes to;
- no key occurs twice in a chain;
- `size` counts the cells;
- every value of a set's cells is the text "null";
- the table is not over its load factor.

The set's remove, has, clear, length and keys (hash-set.js:100-155) are the
same code as the map's (hash-map.js:115-202). The same `HashTables` members
model both, instantiated with `SetKind`.

Mutation becomes a function from the old table to the new one, or a method
returning the new table. A query goes through `at`, which may allocate a
slot, so it returns an `Answer`: the table it leaves behind plus its
result. The contracts show that this allocation changes no entry and no
count.

Three behaviours of the code shape the model:

- `at` allocates a slot on any access, including `get`, `has` and
  `remove`, not only on insertion. `HashTables.At` models this.
- `resize` re-inserts through `set`/`add`, which can resize again. So a
  table comes to rest at the first doubling where its entries fit
  (`Capacity.FitCapacity`). `HashTables.Resize` states both facts:
  - the capacity is exactly twice the old one whenever the entries fit
    there, which is always the case for the default load factor;
  - it is the first fitting doubling otherwise.
- `add` calls `append(key)`, whose default null value `Node` turns into
  the text "null". So each cell of a set holds the text "null".

## Model

| member | source | states |
|---|---|---|
| Hashing.CharUnits | hash-map.js:29-31 | `charCodeAt` sees each character as one UTF-16 unit inside the Basic Multilingual Plane and two units above it, each below 65536 |
| Hashing.Hash | hash-map.js:23-35 | the hash is a valid bucket index, below the capacity |
| Hashing.HashIsPolynomialMod | hash-map.js:23-35 | reducing modulo the capacity after every code unit, as the loop does, gives the same result as reducing the whole polynomial `sum unit[i] * 31^(n-1-i)` once at the end |
| Hashing.ReduceIsMod | hash-map.js:31 | the `%` of the loop on nonnegative operands is the Euclidean remainder |
| Hashing.HashOfAbc | hash-map.js:29-32 | the hash of "abc" is `(31*((31*(97%c)+98)%c)+99)%c`, with the modulus applied after each character |
| Capacity.ExceedsIsRatioTest | hash-map.js:60-62 | the cross-multiplied load test holds exactly when `size / capacity > loadFactor` |
| Capacity.ExceedsMonotone | hash-map.js:60-62 | more entries are never less loaded, and more room is never more loaded |
| HashTables.IsLoadedIsRatio | hash-map.js:60-62 | the table's load test holds exactly when `size / capacity` exceeds the load factor, computed as exact division |
| Capacity.FitCapacity | hash-map.js:88-96 | doubling stops at a capacity at least the starting one at which the entries are not over the load factor |
| Capacity.FitCapacityIsFirst | hash-map.js:80-96 | the resting capacity is the starting one doubled zero or more times (`IsDoubling`), and every smaller doubling of the start is still overloaded, its half in particular |
| Capacity.FitCapacityCompose | hash-map.js:80-96 | growing for `n` entries and later for `m >= n` ends where growing for `m` directly does |
| Capacity.DefaultThreshold | hash-map.js:11-15 | with load factor 0.75 and capacity 16, twelve entries fit, thirteen do not, and thirteen come to rest at capacity 32 |
| Nodes.NewNode | node.js:10-14 | the key is kept; a given value is kept as text; the cell's value is "null" exactly when no value was given or the value was "null" |
| Text.Str | node.js:11-12 | `String()` keeps a text unchanged, and gives "null" exactly for null and for the text "null" |
| Text.JoinFrame | hash-map.js:215 | `join` starts with the first item, followed by the separator when there are more, and ends with the last item |
| Text.JoinShows | hash-set.js:167 | every item occurs in the joined text |
| Chains.Append | linked-list.js:16-30 | the old chain is a prefix of the new one, the new cell is last, and the keys gain the new key at the end |
| Chains.FindIndex | linked-list.js:57-70 | the position found carries the key and no earlier cell does; there is no position exactly when no cell carries the key |
| Chains.Find | linked-list.js:57-70 | `find` returns the first cell carrying the key, and null exactly when no cell carries it |
| Chains.Contains | linked-list.js:37-50 | `contains` is true exactly when some cell carries the key, which is exactly when `find` returns a cell |
| Chains.Remove | linked-list.js:77-97 | true exactly when the key is present; then only the first cell carrying it is unlinked and the others keep their order; otherwise the chain is unchanged |
| Chains.AsMapRemove | linked-list.js:77-97 | on a chain without duplicate keys, removing a key removes exactly that key from the chain's map |
| Chains.AsMapAppend | linked-list.js:16-30 | appending an absent key adds exactly that key, with the text of its value, to the chain's map |
| Chains.Clear | linked-list.js:102-104 | a cleared chain carries no key and lists no keys |
| Chains.Keys | linked-list.js:110-121 | one key per cell, head to tail |
| Chains.Values | linked-list.js:127-138 | one value per cell, head to tail |
| Chains.Entries | linked-list.js:144-155 | the entries pair the keys and values position by position |
| HashTables.New | hash-map.js:11-16 | a new table is valid and empty, with the given capacity and load factor and every slot unallocated |
| HashTables.At | hash-map.js:42-54 | the slot of `hash(key)` is in range, so the out-of-bounds throw cannot happen; afterwards the slot is allocated, no other slot changes, and the contents and size are unchanged |
| HashTables.Insert | hash-map.js:70-79 | the key is bound to the text of its value and every other entry is kept; the size grows exactly when the key was absent; a present key changes no bucket but its own; a set that already has the key is left exactly as it was |
| HashTables.InsertLayout | hash-map.js:70-75 | only the key's own bucket changes, and a new key's cell is appended at the tail of that bucket's chain |
| HashTables.OverwriteKeepsKeys | hash-map.js:76-78 | overwriting the value of a present key leaves `keys` exactly as it was: the cell keeps its bucket and its place in the chain |
| HashTables.Put | hash-map.js:69-83 | insertion followed by the load check leaves a valid table with the key rebound, other entries kept, and the capacity at the first doubling where the new size fits; whenever the capacity is unchanged (always for a present key) no resize happened and the result is the bare insertion |
| HashTables.Resize | hash-map.js:88-96 | the entries and size survive a resize; the capacity is twice the old one when the entries fit there, and otherwise the first fitting doubling of it |
| HashTables.Reinsert | hash-map.js:95 | re-inserting pairs with distinct, absent keys one by one adds exactly those pairs to the contents and adds their number to the size |
| HashTables.Extract | hash-set.js:86 | what `resize` takes out has one pair per cell in bucket order, carrying the cell's key; a map's pair carries the cell's value and a set's carries null |
| HashTables.ExtractFacts | hash-map.js:89 | the extracted pairs number `size`, have distinct keys, and rebuild exactly the contents; for a set every value is null |
| HashTables.Get | hash-map.js:103-108 | `get` gives the stored text of a present key and null for an absent one, and changes no entry and no count |
| HashTables.Has | hash-map.js:115-118 | `has` is true exactly when the key is stored, and changes no entry and no count |
| HashTables.Remove | hash-map.js:125-134 | true exactly when the key was present; afterwards the key is gone, every other entry is unchanged, and the size drops by one exactly when it returned true |
| HashTables.RemoveLayout | hash-map.js:125-128 | only the key's own bucket changes, and it holds what the chain's `remove` leaves (the other cells in order); an absent key leaves exactly the table `at` leaves |
| HashTables.Clear | hash-map.js:139-147 | the table is empty with size 0, every allocated slot stays allocated, and the capacity and load factor are kept |
| HashTables.Length | hash-map.js:152-154 | `length` is the number of cells and the number of distinct stored keys |
| HashTables.KeysOf | hash-map.js:160-170 | the bucket-by-bucket concatenation of the chains' keys is the key list of all cells in bucket order |
| HashTables.ValuesOf | hash-map.js:176-186 | the bucket-by-bucket concatenation of the chains' values is the value list of all cells in bucket order |
| HashTables.EntriesOf | hash-map.js:192-202 | the bucket-by-bucket concatenation of the chains' entries is the entry list of all cells in bucket order |
| HashTables.KeysSpec | hash-map.js:160-170 | `keys` lists each stored key exactly once, `size` of them, in non-decreasing bucket index |
| HashTables.ProjectionsSpec | hash-map.js:160-202 | `values` and `entries` follow `keys` position by position, each value being the one stored for its key |
| HashTables.TwoKeysInOrder | hash-map.js:160-170 | a table of exactly two keys lists first the one in the lower bucket |
| HashTables.TwoKeysListed | hash-map.js:160-170 | distinct keys listed by non-decreasing hash, exactly those of a two-key map, are the lower-hashing key then the other |
| HashMaps.Set | hash-map.js:69-83 | afterwards `get(key)` gives the value, `get` of every other key is unchanged, the size grows exactly when the key was new, and the table is valid at the first doubling where it fits; a present key is overwritten in place, keeping the capacity and the order of `keys` |
| HashMaps.SetThenRemove | hash-map.js:125-134 | `remove` after `set` of a new key reports success and restores the entries and the size |
| HashMaps.Items | hash-map.js:214 | one `key -> value` line per entry, in order |
| HashMaps.ToString | hash-map.js:208-218 | the rendering is `{}` exactly when the map is empty; otherwise it opens with a brace and an indented line and closes with a brace on its own line |
| HashMaps.ShowsEveryEntry | hash-map.js:208-218 | every stored entry appears in the rendering as its `key -> value` line |
| HashMaps.RenderTwoEntries | hash-map.js:208-218 | the map of `a` to `1` and `b` to `2` at the default capacity renders as the two lines `a -> 1,` and `b -> 2` between braces |
| HashMaps.ThirteenKeys | hash-map.js:60-96 | thirteen distinct keys inserted at the defaults leave capacity 32, size 13, and every key mapped to its value |
| HashSets.Add | hash-set.js:68-80 | afterwards `has(key)` holds and every other key's membership is unchanged; a present key leaves the set exactly as it was; a new key grows the size by one; the table is valid at the first doubling where it fits |
| HashSets.ClearEmpties | hash-set.js:124-132 | after `clear` no key is listed or a member, and the capacity is kept |
| HashSets.ToString | hash-set.js:161-170 | the rendering is `{}` exactly when the set is empty; otherwise it opens with `{ ` and closes with ` }` |
| HashSets.ShowsEveryKey | hash-set.js:161-170 | every member appears in the rendering |
| HashSets.OneLine | hash-set.js:161-170 | the rendering holds no line break unless some member does |
| HashSets.RenderTwoKeys | hash-set.js:161-170 | the set of `a` and `b` at the default capacity renders as `{ a, b }` |
| HashSets.TwoLettersRender | hash-set.js:161-170 | any set of exactly `a` and `b` in 16 buckets lists `a` (bucket 1) before `b` (bucket 2) and renders as `{ a, b }` |

## Left out

- Keys and values are modelled as strings. In the library, `String()`
  coerces any JavaScript value to text. For values the model keeps only
  the null case, as `Text.Str`. Keys are strings in the model, so a null
  key, which the library hashes and stores as the text "null", is not
  modelled. Numbers, objects and `undefined` are outside the model.
- The load factor is a positive rational rather than a floating-point
  number. `isLoaded`'s floating-point division is modelled as exact.
- `Capacity.Positive` is a precondition of construction. The library does
  not reject a load factor of 0 or less. With one, every `set`/`add` that
  re-inserts inside `resize` resizes again. The nested doublings end only
  when `new Array` throws for a length of 2^32 or more (see below).
- HashTables.New: the model's capacity is unbounded. In the library,
  `new Array(capacity)` throws a `RangeError` when the capacity is 2^32 or
  more (hash-map.js:15, hash-set.js:15). This error path is not modelled.
- HashTables.Resize: does not model the same `RangeError` inside `resize`
  (hash-map.js:93, hash-set.js:90). There, `clear()` has already run and
  the capacity has already doubled when `new Array` throws, so the table
  loses its entries. The model promises that the entries survive at any
  capacity.
- A capacity of at least 1 is a precondition of construction, and the
  capacity is a whole number. With 0, `%` gives NaN. A capacity that is not
  a whole number, such as 10.5, makes `new Array` throw a `RangeError` at
  hash-map.js:15. Both are outside the model.
- Object identity and in-place pointer mutation are left out. `find`
  returning a node and `remove` unlinking it by identity become positions
  in a sequence of cells.
- The `nextNode` field of `Node` is left out. The successor is the next
  element of the chain.
- The out-of-bounds `Error` of `at` is left out. It is an unreachable
  branch, and `HashTables.At` proves it unreachable.
- Sparse-array holes (`new Array(capacity)`) are `None` slots.
- Characters are Unicode scalar values. A Dafny string cannot hold lone
  surrogates, which JavaScript strings can.
- HashTables.Resize: requires only a well-formed table, not a loaded one.
  The library calls it only when loaded, and the contract covers both.
- The library's `length` is a getter on the object. It is modelled as a
  function of the table (`HashTables.Length`).

=== FILE: capacity.dfy ===
/** The load check and the capacity a run of doublings settles on. */
module Capacity {

  /** A load factor `num / den`; the default 0.75 of the `HashMap` and `HashSet` constructors is 3/4. */
  datatype LoadFactor = LoadFactor(num: nat, den: nat)

  const DefaultLoad: LoadFactor := LoadFactor(3, 4)
  const DefaultCapacity: nat := 16

  /** The load factor is a positive rational. Without this every re-insert
      inside `resize` resizes again, until the array length limit stops it. */
  predicate Positive(lf: LoadFactor)
  {
    lf.num >= 1 && lf.den >= 1
  }

  /** `a * b` by repeated addition. The load test is stated through it, so
      that unfolding the test never asks for products of two unknowns;
      `TimesIsProduct` links it back to `*`. */
  function Times(a: nat, b: nat): nat
    decreases a
  {
    if a == 0 then 0 else b + Times(a - 1, b)
  }

  lemma {:induction false} TimesIsProduct(a: nat, b: nat)
    ensures Times(a, b) == a * b
    decreases a
  {
    if a > 0 {
      TimesIsProduct(a - 1, b);
    }
  }

  /** `n / capacity > num / den`, cross-multiplied (both denominators are
      positive), as `isLoaded` compares it. */
  predicate Exceeds(n: nat, capacity: nat, lf: LoadFactor)
  {
    Times(n, lf.den) > Times(lf.num, capacity)
  }

  /** The load test in terms of ordinary products. */
  lemma ExceedsAsProduct(n: nat, capacity: nat, lf: LoadFactor)
    ensures Exceeds(n, capacity, lf) <==> n * lf.den > lf.num * capacity
  {
    TimesIsProduct(n, lf.den);
    TimesIsProduct(lf.num, capacity);
  }

  /** Comparing two fractions with positive denominators is comparing the
      cross products. */
  lemma CrossMultiply(x: real, p: real, y: real, q: real)
    requires p > 0.0 && q > 0.0
    ensures x / p > y / q <==> x * q > y * p
  {
    var a, b := x / p, y / q;
    var pq := p * q;
    assert pq > 0.0;
    assert x * q == a * pq;
    assert y * p == b * pq;
    if a > b {
      assert a * pq - b * pq == (a - b) * pq;
    }
    if a * pq > b * pq {
      assert (a - b) * pq > 0.0;
    }
  }

  /** The cross-multiplied test agrees with the division `isLoaded` performs. */
  lemma ExceedsIsRatioTest(n: nat, capacity: nat, lf: LoadFactor)
    requires capacity >= 1 && Positive(lf)
    ensures Exceeds(n, capacity, lf)
        <==> (n as real) / (capacity as real) > (lf.num as real) / (lf.den as real)
  {
    ExceedsAsProduct(n, capacity, lf);
    CrossMultiply(n as real, capacity as real, lf.num as real, lf.den as real);
    RealProduct(n, lf.den);
    RealProduct(lf.num, capacity);
  }

  lemma RealProduct(a: nat, b: nat)
    ensures (a * b) as real == (a as real) * (b as real)
  {
  }

  lemma MulMonotone(a: nat, b: nat, c: nat)
    requires a <= b
    ensures a * c <= b * c
  {
  }

  /** More entries are never less loaded; more room is never more loaded. */
  lemma ExceedsMonotone(n: nat, m: nat, capacity: nat, room: nat, lf: LoadFactor)
    requires n <= m && room <= capacity
    ensures Exceeds(n, capacity, lf) ==> Exceeds(m, room, lf)
  {
    ExceedsAsProduct(n, capacity, lf);
    ExceedsAsProduct(m, room, lf);
    MulMonotone(n, m, lf.den);
    MulMonotone(room, capacity, lf.num);
  }

  /** Doubling the room cuts into the excess of an overloaded table. */
  lemma DoublingShrinksExcess(n: nat, capacity: nat, lf: LoadFactor)
    requires capacity >= 1 && Positive(lf) && Exceeds(n, capacity, lf)
    ensures n * lf.den - lf.num * capacity > 0
    ensures n * lf.den - lf.num * (2 * capacity) < n * lf.den - lf.num * capacity
  {
    ExceedsAsProduct(n, capacity, lf);
    assert lf.num * (2 * capacity) == lf.num * capacity + lf.num * capacity;
  }

  /** The capacity reached by doubling `capacity` until `n` entries no longer
      exceed the load factor: where a table of `n` entries comes to rest. */
  function FitCapacity(n: nat, capacity: nat, lf: LoadFactor): (r: nat)
    requires capacity >= 1 && Positive(lf)
    ensures r >= capacity && !Exceeds(n, r, lf)
    decreases n * lf.den - lf.num * capacity
  {
    if !Exceeds(n, capacity, lf) then capacity
    else
      DoublingShrinksExcess(n, capacity, lf);
      FitCapacity(n, 2 * capacity, lf)
  }

  /** `r` is `c` doubled zero or more times: `c * 2^k` for some `k`. */
  predicate IsDoubling(r: nat, c: nat)
    decreases r
  {
    r == c || (r > c && r % 2 == 0 && IsDoubling(r / 2, c))
  }

  /** A doubling of `c` is at least `c`. */
  lemma DoublingAtLeast(r: nat, c: nat)
    requires IsDoubling(r, c)
    ensures r >= c
  {
  }

  /** A doubling of `2 * c` is a doubling of `c`. */
  lemma {:induction false} DoublingOfTwice(r: nat, c: nat)
    requires IsDoubling(r, 2 * c)
    ensures IsDoubling(r, c)
    decreases r
  {
    if r != 2 * c {
      DoublingOfTwice(r / 2, c);
      DoublingAtLeast(r / 2, c);
    }
  }

  /** A doubling of `c` other than `c` itself is a doubling of `2 * c`. */
  lemma {:induction false} DoublingPastFirst(r: nat, c: nat)
    requires IsDoubling(r, c) && r != c
    ensures IsDoubling(r, 2 * c)
    decreases r
  {
    if r / 2 != c {
      DoublingPastFirst(r / 2, c);
      DoublingAtLeast(r / 2, 2 * c);
    }
  }

  /** The capacity reached is the first fitting doubling of the start: it is
      the start doubled some number of times, and every smaller doubling of
      the start is still overloaded, in particular its half when it is not
      the start itself. */
  lemma {:induction false} FitCapacityIsFirst(n: nat, capacity: nat, lf: LoadFactor)
    requires capacity >= 1 && Positive(lf)
    ensures IsDoubling(FitCapacity(n, capacity, lf), capacity)
    ensures forall d: nat :: IsDoubling(d, capacity) && d < FitCapacity(n, capacity, lf) ==> Exceeds(n, d, lf)
    ensures var r := FitCapacity(n, capacity, lf);
      r == capacity || (r % 2 == 0 && r / 2 >= capacity && Exceeds(n, r / 2, lf))
    decreases n * lf.den - lf.num * capacity
  {
    var r := FitCapacity(n, capacity, lf);
    if Exceeds(n, capacity, lf) {
      DoublingShrinksExcess(n, capacity, lf);
      FitCapacityIsFirst(n, 2 * capacity, lf);
      DoublingOfTwice(r, capacity);
      forall d: nat | IsDoubling(d, capacity) && d < r
        ensures Exceeds(n, d, lf)
      {
        if d != capacity {
          DoublingPastFirst(d, capacity);
        }
      }
    } else {
      forall d: nat | IsDoubling(d, capacity)
        ensures d >= r
      {
        DoublingAtLeast(d, capacity);
      }
    }
  }

  /** With the defaults, twelve entries fit in 16 buckets and the
      thirteenth (13/16 > 0.75) sends the table to 32 buckets. */
  lemma DefaultThreshold()
    ensures !Exceeds(12, DefaultCapacity, DefaultLoad)
    ensures Exceeds(13, DefaultCapacity, DefaultLoad)
    ensures FitCapacity(13, DefaultCapacity, DefaultLoad) == 32
  {
  }

  /** The growth still to come before `n` entries fit: the termination
      measure of the insert/resize recursion. */
  function PendingGrowth(n: nat, capacity: nat, lf: LoadFactor): nat
    requires capacity >= 1 && Positive(lf)
  {
    FitCapacity(n, capacity, lf) - capacity
  }

  /** More entries never need less room. */
  lemma {:induction false} FitCapacityMonotone(n: nat, m: nat, capacity: nat, lf: LoadFactor)
    requires n <= m && capacity >= 1 && Positive(lf)
    ensures FitCapacity(n, capacity, lf) <= FitCapacity(m, capacity, lf)
    decreases m * lf.den - lf.num * capacity
  {
    ExceedsMonotone(n, m, capacity, capacity, lf);
    if Exceeds(n, capacity, lf) {
      DoublingShrinksExcess(n, capacity, lf);
      FitCapacityMonotone(n, m, 2 * capacity, lf);
    }
  }

  /** Growing for `n` entries first and for `m >= n` entries afterwards ends
      where growing for `m` directly does. */
  lemma {:induction false} FitCapacityCompose(n: nat, m: nat, capacity: nat, lf: LoadFactor)
    requires n <= m && capacity >= 1 && Positive(lf)
    ensures FitCapacity(m, FitCapacity(n, capacity, lf), lf) == FitCapacity(m, capacity, lf)
    decreases m * lf.den - lf.num * capacity
  {
    ExceedsMonotone(n, m, capacity, capacity, lf);
    if Exceeds(n, capacity, lf) {
      DoublingShrinksExcess(n, capacity, lf);
      FitCapacityCompose(n, m, 2 * capacity, lf);
    }
  }

  /** One step of re-inserting towards `n` entries: growing for the first
      `size + 1` of them is within the growth for all `n`, and resting there
      before growing for the rest ends where growing for `n` directly does. */
  lemma GrowthStep(size: nat, n: nat, capacity: nat, lf: LoadFactor)
    requires size + 1 <= n && capacity >= 1 && Positive(lf)
    ensures PendingGrowth(size + 1, capacity, lf) <= PendingGrowth(n, capacity, lf)
    ensures FitCapacity(n, FitCapacity(size + 1, capacity, lf), lf) == FitCapacity(n, capacity, lf)
    ensures PendingGrowth(n, FitCapacity(size + 1, capacity, lf), lf) <= PendingGrowth(n, capacity, lf)
  {
    FitCapacityMonotone(size + 1, n, capacity, lf);
    FitCapacityCompose(size + 1, n, capacity, lf);
  }

  /** Doubling an overloaded capacity uses up part of the growth still to
      come; doubling one that fits leaves none. */
  lemma PendingGrowthAfterDoubling(n: nat, capacity: nat, lf: LoadFactor)
    requires capacity >= 1 && Positive(lf)
    ensures Exceeds(n, capacity, lf)
        ==> PendingGrowth(n, 2 * capacity, lf) < PendingGrowth(n, capacity, lf)
    ensures !Exceeds(n, capacity, lf)
        ==> PendingGrowth(n, capacity, lf) == 0 && PendingGrowth(n, 2 * capacity, lf) == 0
  {
    ExceedsMonotone(n, n, 2 * capacity, capacity, lf);
  }

}

=== FILE: chains.dfy ===
/** A cell of a bucket chain. */
module Nodes {

  import opened Options
  import opened Text

  /** A chain cell; its successor is the next element of the chain, so a
      cell whose `nextNode` is null is the last one. */
  datatype Node = Node(key: string, value: string)

  /** `new Node(key, value)`: both arguments are stored as text, and the
      default null value becomes the text "null". */
  function NewNode(key: string, value: Option<string>): (n: Node)
    ensures n.key == key
    ensures value.Some? ==> n.value == value.value
    ensures n.value == "null" <==> value.None? || value == Some("null")
  {
    Node(key, Str(value))
  }

}

/** The singly linked bucket chain, head first, as a sequence of cells. */
module Chains {

  import opened Options
  import opened Text
  import opened Nodes
  import Maps

  type Chain = seq<Node>

  /** Some cell of `c` carries key `k`. */
  predicate HasKey(c: Chain, k: string)
  {
    exists i :: 0 <= i < |c| && c[i].key == k
  }

  /** No two cells of `c` share a key: the head's key does not recur in the
      tail, and the tail is itself distinct. */
  predicate DistinctKeys(c: Chain)
    decreases |c|
  {
    c == [] || (!HasKey(c[1..], c[0].key) && DistinctKeys(c[1..]))
  }

  /** The recursive definition is the pairwise one. */
  lemma {:induction false} DistinctKeysPairwise(c: Chain)
    ensures DistinctKeys(c) <==> forall i, j :: 0 <= i < j < |c| ==> c[i].key != c[j].key
    decreases |c|
  {
    if c != [] {
      var tail := c[1..];
      DistinctKeysPairwise(tail);
      assert forall i :: 0 <= i < |tail| ==> tail[i] == c[i + 1];
      if forall i, j :: 0 <= i < j < |c| ==> c[i].key != c[j].key {
        assert forall i, j :: 0 <= i < j < |tail| ==> tail[i].key != tail[j].key by {
          forall i, j | 0 <= i < j < |tail| ensures tail[i].key != tail[j].key {
            assert tail[i] == c[i + 1] && tail[j] == c[j + 1];
          }
        }
      }
      if DistinctKeys(c) {
        forall i, j | 0 <= i < j < |c| ensures c[i].key != c[j].key {
          assert c[j] == tail[j - 1];
          if i > 0 {
            assert c[i] == tail[i - 1];
          }
        }
      }
    }
  }

  /** `append(key, value)`: a fresh cell becomes the new tail. There is no
      duplicate check. */
  function Append(c: Chain, key: string, value: Option<string>): (r: Chain)
    ensures |r| == |c| + 1 && r[..|c|] == c
    ensures r[|c|] == NewNode(key, value)
    ensures Keys(r) == Keys(c) + [key]
  {
    var r := c + [NewNode(key, value)];
    assert Keys(r) == Keys(c) + [key] by {
      assert forall i :: 0 <= i < |r| ==> Keys(r)[i] == (Keys(c) + [key])[i];
    }
    r
  }

  /** The position of the first cell, head to tail, whose key is `k`. */
  function FindIndex(c: Chain, k: string): (r: Option<nat>)
    ensures r.Some? ==> r.value < |c| && c[r.value].key == k
    ensures r.Some? ==> forall j :: 0 <= j < r.value ==> c[j].key != k
    ensures r.None? <==> !HasKey(c, k)
  {
    if c == [] then None
    else if c[0].key == k then Some(0)
    else
      match FindIndex(c[1..], k)
      case None => None
      case Some(i) => Some(i + 1)
  }

  /** `find(key)`: the first cell carrying `k`, or null. */
  function Find(c: Chain, k: string): (r: Option<Node>)
    ensures r.None? <==> !HasKey(c, k)
    ensures r.Some? ==> exists i :: 0 <= i < |c| && c[i] == r.value && c[i].key == k
                                    && forall j :: 0 <= j < i ==> c[j].key != k
  {
    match FindIndex(c, k)
    case None => None
    case Some(i) => Some(c[i])
  }

  /** `contains(key)`: its own scan, which agrees with `find`. */
  function Contains(c: Chain, k: string): (r: bool)
    ensures r <==> HasKey(c, k)
    ensures r <==> Find(c, k).Some?
  {
    if c == [] then false
    else if c[0].key == k then true
    else
      assert forall i :: 0 <= i < |c| - 1 ==> c[1..][i] == c[i + 1];
      Contains(c[1..], k)
  }

  /** The value stored under `k` in `c`, from the first matching cell. */
  function ValueOf(c: Chain, k: string): Option<string>
  {
    match Find(c, k)
    case None => None
    case Some(n) => Some(n.value)
  }

  /** The result of `remove(key)`: the chain left behind and the returned flag. */
  datatype Removal = Removal(chain: Chain, removed: bool)

  /** `remove(key)`: unlink the first cell carrying `k`, either by moving the
      head or by pointing its predecessor at its successor. */
  function Remove(c: Chain, k: string): (r: Removal)
    ensures r.removed <==> HasKey(c, k)
    ensures !r.removed ==> r.chain == c
    ensures r.removed ==> |r.chain| == |c| - 1
    ensures r.removed ==>
      var i := FindIndex(c, k).value;
      && (forall j :: 0 <= j < i ==> r.chain[j] == c[j])
      && (forall j :: i <= j < |r.chain| ==> r.chain[j] == c[j + 1])
  {
    if !Contains(c, k) then Removal(c, false)
    else
      var i := FindIndex(c, k).value;
      if i == 0 then Removal(c[1..], true)
      else Removal(c[..i] + c[i + 1..], true)
  }

  /** `clear()`: the head becomes null. */
  function Clear(c: Chain): (r: Chain)
    ensures forall k :: !HasKey(r, k)
    ensures Keys(r) == []
  {
    []
  }

  /** The `keys` getter: the keys head to tail. */
  function Keys(c: Chain): (r: seq<string>)
    ensures |r| == |c|
    ensures forall i :: 0 <= i < |c| ==> r[i] == c[i].key
  {
    if c == [] then [] else [c[0].key] + Keys(c[1..])
  }

  /** The `values` getter: the values head to tail. */
  function Values(c: Chain): (r: seq<string>)
    ensures |r| == |c|
    ensures forall i :: 0 <= i < |c| ==> r[i] == c[i].value
  {
    if c == [] then [] else [c[0].value] + Values(c[1..])
  }

  /** The `entries` getter: key-value pairs head to tail, pairing the
      `keys` and `values` projections position by position. */
  function Entries(c: Chain): (r: seq<(string, string)>)
    ensures |r| == |Keys(c)| == |Values(c)|
    ensures forall i :: 0 <= i < |c| ==> r[i] == (Keys(c)[i], Values(c)[i])
  {
    if c == [] then [] else [(c[0].key, c[0].value)] + Entries(c[1..])
  }

  /** The chain read as a key-to-value map, first match winning. */
  function AsMap(c: Chain): map<string, string>
  {
    if c == [] then map[] else AsMap(c[1..])[c[0].key := c[0].value]
  }

  /** The map view holds exactly the keys some cell carries. */
  lemma {:induction false} AsMapHasKey(c: Chain, k: string)
    ensures k in AsMap(c) <==> HasKey(c, k)
    decreases |c|
  {
    if c != [] {
      AsMapHasKey(c[1..], k);
      HasKeyCons(c, k);
    }
  }

  /** `find` agrees with the map view: the first matching cell carries the
      value the map holds for the key. */
  lemma {:induction false} AsMapValueOf(c: Chain, k: string)
    ensures ValueOf(c, k) == if k in AsMap(c) then Some(AsMap(c)[k]) else None
    decreases |c|
  {
    if c == [] {
      assert !HasKey(c, k);
    } else {
      AsMapValueOf(c[1..], k);
      ValueOfCons(c, k);
    }
  }

  /** With distinct keys, the map has one entry per cell. */
  lemma {:induction false} AsMapSize(c: Chain)
    requires DistinctKeys(c)
    ensures |AsMap(c)| == |c|
    decreases |c|
  {
    if c != [] {
      assert DistinctKeys(c[1..]) by {
        assert forall i :: 0 <= i < |c| - 1 ==> c[1..][i] == c[i + 1];
      }
      AsMapSize(c[1..]);
      assert !HasKey(c[1..], c[0].key) by {
        assert forall i :: 0 <= i < |c| - 1 ==> c[1..][i] == c[i + 1];
      }
      AsMapHasKey(c[1..], c[0].key);
    }
  }

  lemma HasKeyCons(c: Chain, k: string)
    requires c != []
    ensures HasKey(c, k) <==> c[0].key == k || HasKey(c[1..], k)
  {
    if HasKey(c, k) && c[0].key != k {
      var i :| 0 <= i < |c| && c[i].key == k;
      assert c[1..][i - 1].key == k;
    }
    if HasKey(c[1..], k) {
      var i :| 0 <= i < |c[1..]| && c[1..][i].key == k;
      assert c[i + 1].key == k;
    }
  }

  lemma ValueOfCons(c: Chain, k: string)
    requires c != []
    ensures ValueOf(c, k) == if c[0].key == k then Some(c[0].value) else ValueOf(c[1..], k)
  {
    if c[0].key != k {
      assert FindIndex(c, k) == match FindIndex(c[1..], k)
        case None => None case Some(i) => Some(i + 1);
    }
  }

  /** A key occurs in a concatenation iff it occurs in either part. */
  lemma HasKeyConcat(a: Chain, b: Chain, k: string)
    ensures HasKey(a + b, k) <==> HasKey(a, k) || HasKey(b, k)
  {
    var ab := a + b;
    if HasKey(ab, k) {
      var i :| 0 <= i < |ab| && ab[i].key == k;
      if i >= |a| {
        assert b[i - |a|].key == k;
      }
    }
    if HasKey(b, k) {
      var i :| 0 <= i < |b| && b[i].key == k;
      assert ab[|a| + i].key == k;
    }
    if HasKey(a, k) {
      var i :| 0 <= i < |a| && a[i].key == k;
      assert ab[i].key == k;
    }
  }

  /** Two distinct chains with no key in common concatenate to a distinct
      chain. */
  lemma {:induction false} DistinctConcat(a: Chain, b: Chain)
    requires DistinctKeys(a) && DistinctKeys(b)
    requires forall i :: 0 <= i < |a| ==> !HasKey(b, a[i].key)
    ensures DistinctKeys(a + b)
    decreases |a|
  {
    if a == [] {
      assert a + b == b;
    } else {
      var tail := a[1..];
      assert (a + b)[1..] == tail + b;
      assert forall i :: 0 <= i < |tail| ==> tail[i] == a[i + 1];
      DistinctConcat(tail, b);
      HasKeyConcat(tail, b, a[0].key);
    }
  }

  /** Appending a key the chain lacks keeps its keys distinct. */
  lemma DistinctAppend(c: Chain, key: string, value: Option<string>)
    requires DistinctKeys(c) && !HasKey(c, key)
    ensures DistinctKeys(Append(c, key, value))
  {
    var last := [NewNode(key, value)];
    assert DistinctKeys(last[1..]);
    forall i | 0 <= i < |c| ensures !HasKey(last, c[i].key) {
      assert c[i].key != key;
    }
    DistinctConcat(c, last);
  }

  /** Overwriting a value leaves the keys, hence their distinctness, alone. */
  lemma DistinctOverwrite(c: Chain, j: nat, v: string)
    requires DistinctKeys(c) && j < |c|
    ensures DistinctKeys(c[j := c[j].(value := v)])
  {
    var r := c[j := c[j].(value := v)];
    DistinctKeysPairwise(c);
    DistinctKeysPairwise(r);
    assert forall p :: 0 <= p < |r| ==> r[p].key == c[p].key;
  }

  /** Removing `key` from a chain with distinct keys leaves it without `key`
      and still distinct. */
  lemma RemoveFromDistinct(c: Chain, key: string)
    requires DistinctKeys(c)
    ensures !HasKey(Remove(c, key).chain, key)
    ensures DistinctKeys(Remove(c, key).chain)
  {
    var r := Remove(c, key);
    if r.removed {
      DistinctKeysPairwise(c);
      var i := FindIndex(c, key).value;
      assert forall j :: 0 <= j < |r.chain| ==> r.chain[j] == c[if j < i then j else j + 1];
      DistinctKeysPairwise(r.chain);
    }
  }

  /** In a chain with distinct keys, no cell's key recurs after it. */
  lemma DistinctAfter(c: Chain, i: nat)
    requires DistinctKeys(c) && i < |c|
    ensures !HasKey(c[i + 1..], c[i].key)
  {
    DistinctKeysPairwise(c);
    var tail := c[i + 1..];
    forall p | 0 <= p < |tail| ensures tail[p].key != c[i].key {
      assert tail[p] == c[i + 1 + p];
    }
  }

  /** The key projection distributes over concatenation. */
  lemma KeysConcat(a: Chain, b: Chain)
    ensures Keys(a + b) == Keys(a) + Keys(b)
    ensures Values(a + b) == Values(a) + Values(b)
    ensures Entries(a + b) == Entries(a) + Entries(b)
  {
    assert forall i :: 0 <= i < |a + b| ==> Keys(a + b)[i] == (Keys(a) + Keys(b))[i];
    assert forall i :: 0 <= i < |a + b| ==> Values(a + b)[i] == (Values(a) + Values(b))[i];
    assert forall i :: 0 <= i < |a + b| ==> Entries(a + b)[i] == (Entries(a) + Entries(b))[i];
  }


  /** Reading a concatenation as a map: the front part's entries win. */
  lemma {:induction false} AsMapConcat(a: Chain, b: Chain)
    ensures AsMap(a + b) == AsMap(b) + AsMap(a)
    decreases |a|
  {
    if a == [] {
      assert a + b == b;
    } else {
      assert (a + b)[1..] == a[1..] + b;
      AsMapConcat(a[1..], b);
    }
  }

  /** `append` of a key the chain lacks adds exactly that entry. */
  lemma AsMapAppend(c: Chain, key: string, value: Option<string>)
    requires !HasKey(c, key)
    ensures AsMap(Append(c, key, value)) == AsMap(c)[key := Str(value)]
  {
    AsMapConcat(c, [NewNode(key, value)]);
    assert AsMap([NewNode(key, value)]) == map[key := Str(value)];
    AsMapHasKey(c, key);
  }

  /** A chain cut around position `i`: the cells before it, its cell, and
      the cells after it. */
  lemma AsMapAround(c: Chain, i: nat)
    requires i < |c|
    ensures AsMap(c) == AsMap(c[i + 1..]) + (map[c[i].key := c[i].value] + AsMap(c[..i]))
  {
    var front, back := c[..i], c[i..];
    assert c == front + back;
    AsMapConcat(front, back);
    assert back[1..] == c[i + 1..];
    Maps.BindAsMiddle(AsMap(c[i + 1..]), AsMap(front), c[i].key, c[i].value);
  }

  /** Overwriting the value of the first cell carrying `key` rebinds `key`
      and nothing else. */
  lemma AsMapOverwrite(c: Chain, key: string, j: nat, v: string)
    requires FindIndex(c, key) == Some(j)
    ensures AsMap(c[j := c[j].(value := v)]) == AsMap(c)[key := v]
  {
    var c' := c[j := c[j].(value := v)];
    var before, after := AsMap(c[..j]), AsMap(c[j + 1..]);
    AsMapAround(c, j);
    AsMapAround(c', j);
    assert c'[..j] == c[..j] && c'[j + 1..] == c[j + 1..];
    assert c'[j].key == key && c'[j].value == v;
    AsMapHasKey(c[..j], key);
    Maps.RebindSingleton(key, c[j].value, v);
    Maps.RebindMiddle(AsMap(c), AsMap(c'), after, map[key := c[j].value], before, key, v);
  }

  /** `remove` on a chain with distinct keys drops exactly the entry of `key`. */
  lemma AsMapRemove(c: Chain, key: string)
    requires DistinctKeys(c)
    ensures AsMap(Remove(c, key).chain) == AsMap(c) - {key}
  {
    var r := Remove(c, key);
    if r.removed {
      var i := FindIndex(c, key).value;
      AsMapAround(c, i);
      assert r.chain == c[..i] + c[i + 1..];
      AsMapConcat(c[..i], c[i + 1..]);
      AsMapHasKey(c[..i], key);
      AsMapHasKey(c[i + 1..], key);
      DistinctAfter(c, i);
      Maps.DropEntry(AsMap(c), AsMap(r.chain), AsMap(c[i + 1..]), AsMap(c[..i]), key, c[i].value);
    } else {
      AsMapHasKey(c, key);
    }
  }

  /** With distinct keys, every cell's key maps to that cell's value. */
  lemma {:induction false} AsMapOfDistinct(c: Chain)
    requires DistinctKeys(c)
    ensures forall i :: 0 <= i < |c| ==> c[i].key in AsMap(c) && AsMap(c)[c[i].key] == c[i].value
    decreases |c|
  {
    if c != [] {
      assert forall i :: 0 <= i < |c| - 1 ==> c[1..][i] == c[i + 1];
      AsMapOfDistinct(c[1..]);
    }
  }

}

=== FILE: hash_map.dfy ===
/** The map variant: `set`, the map-level reading of `get`, and the text
    rendering, on top of the shared table engine. */
module HashMaps {

  import opened Options
  import opened Text
  import opened Capacity
  import opened Hashing
  import opened HashTables

  /** A table built by `new HashMap(...)` and kept valid by every operation. */
  predicate IsMap(m: Table)
  {
    Valid(m) && m.kind == MapKind
  }

  /** `set(key, value)`: afterwards `get(key)` gives the text of `value`,
      `get` of every other key gives what it gave before, the size grows by
      one exactly when the key was new, and the table is within its load
      factor, at the first doubling of its capacity where the new size fits.
      A present key is overwritten in place: the capacity and the order of
      `keys` stay as they were. */
  method Set(m: Table, key: string, value: string) returns (r: Table)
    requires IsMap(m)
    ensures IsMap(r) && r.load == m.load
    ensures Get(r, key).result == Some(value)
    ensures forall k :: k != key ==> Get(r, k).result == Get(m, k).result
    ensures Contents(r) == Contents(m)[key := value]
    ensures r.size == if key in Contents(m) then m.size else m.size + 1
    ensures r.capacity == FitCapacity(r.size, m.capacity, m.load)
    ensures key in Contents(m) ==> r.capacity == m.capacity && Keys(r) == Keys(m)
  {
    r := Put(m, key, Some(value));
    if key in Contents(m) {
      OverwriteKeepsKeys(m, key, value);
    }
  }

  /** `set` of a new key undone by `remove` of that key: `remove` reports
      the key found, and the entries and the count are back to what they
      were (the capacity may have grown on the way). */
  method SetThenRemove(m: Table, key: string, value: string) returns (r: Table, removed: bool)
    requires IsMap(m) && key !in Contents(m)
    ensures IsMap(r) && removed
    ensures Contents(r) == Contents(m) && r.size == m.size
    ensures r.capacity >= m.capacity
  {
    var m1 := Set(m, key, value);
    var a := Remove(m1, key);
    r, removed := a.table, a.result;
  }

  /** One line of the rendering: `${key} -> ${value}`. */
  function Item(e: (string, string)): string
  {
    e.0 + " -> " + e.1
  }

  function Items(es: seq<(string, string)>): (r: seq<string>)
    ensures |r| == |es|
    ensures forall i :: 0 <= i < |es| ==> r[i] == Item(es[i])
  {
    if es == [] then [] else [Item(es[0])] + Items(es[1..])
  }

  /** `toString()`: `{}` for an empty map, otherwise every entry as
      `key -> value`, in `entries` order, one per indented line between
      braces on lines of their own. */
  function ToString(m: Table): (r: string)
    requires WellFormed(m)
    ensures r == "{}" <==> m.size == 0
    ensures m.size > 0 ==> |r| >= 4 && r[..4] == "{\n  " && r[|r| - 2..] == "\n}"
  {
    if m.size == 0 then "{}"
    else
      var body := Join(Items(Entries(m)), ",\n  ");
      var r := "{\n  " + body + "\n}";
      assert r[..4] == "{\n  " && r[|r| - 2..] == "\n}";
      r
  }

  /** Every stored entry shows in the rendering as its `key -> value` line. */
  lemma ShowsEveryEntry(m: Table, key: string)
    requires WellFormed(m) && key in Contents(m)
    ensures Occurs(Item((key, Contents(m)[key])), ToString(m))
  {
    KeysSpec(m);
    ProjectionsSpec(m);
    var i :| 0 <= i < |Keys(m)| && Keys(m)[i] == key;
    var lines := Items(Entries(m));
    assert lines[i] == Item((key, Contents(m)[key]));
    JoinShows(lines, ",\n  ", i);
    OccursInside(lines[i], Join(lines, ",\n  "), "{\n  ", "\n}");
  }

  /** A map of `a` to `1` and `b` to `2` at the default capacity renders as
      two lines: `a` hashes to bucket 1 and `b` to bucket 2, so `entries`
      lists `a` first. */
  method RenderTwoEntries() returns (m: Table)
    ensures IsMap(m) && m.size == 2
    ensures ToString(m) == "{\n  a -> 1,\n  b -> 2\n}"
  {
    var e := New(MapKind, DefaultLoad, DefaultCapacity);
    var m1 := Set(e, "a", "1");
    assert Contents(m1) == map["a" := "1"] && m1.size == 1;
    m := Set(m1, "b", "2");
    assert Contents(m) == map["a" := "1", "b" := "2"] && m.size == 2;
    assert m.capacity == FitCapacity(2, 16, DefaultLoad) == 16;
    HashOfOneLetter("a");
    HashOfOneLetter("b");
    assert Hash("a", 16) == 97 % 16 == 1;
    assert Hash("b", 16) == 98 % 16 == 2;
    TwoEntriesInOrder(m, "a", "1", "b", "2");
    TwoEntriesText();
  }

  /** The two rendered lines, put together. */
  lemma TwoEntriesText()
    ensures "{\n  " + Join(Items([("a", "1"), ("b", "2")]), ",\n  ") + "\n}"
         == "{\n  a -> 1,\n  b -> 2\n}"
  {
    var es := [("a", "1"), ("b", "2")];
    assert Item(es[0]) == "a -> 1";
    assert Item(es[1]) == "b -> 2";
    assert Items(es) == ["a -> 1", "b -> 2"];
    JoinTwo("a -> 1", "b -> 2", ",\n  ");
  }

  /** A table holding two keys lists first the one in the lower bucket. */
  lemma TwoEntriesInOrder(m: Table, x: string, u: string, y: string, v: string)
    requires WellFormed(m) && x != y
    requires Contents(m) == map[x := u, y := v]
    requires Hash(x, m.capacity) < Hash(y, m.capacity)
    ensures Entries(m) == [(x, u), (y, v)]
  {
    TwoKeysInOrder(m, x, u, y, v);
    ProjectionsSpec(m);
  }

  /** The keys "a" to "m". */
  const Letters: seq<string> := seq(13, j requires 0 <= j < 13 => [(97 + j) as char])
  const Numerals: seq<string> := ["1", "2", "3", "4", "5", "6", "7", "8", "9", "10", "11", "12", "13"]

  /** With the default load factor 0.75 and capacity 16, twelve entries
      fit and the thirteenth distinct key doubles the capacity to 32, with
      all thirteen keys still retrievable. */
  method ThirteenKeys() returns (m: Table)
    ensures IsMap(m) && m.size == 13 && m.capacity == 32 && |m.buckets| == 32
    ensures forall j :: 0 <= j < 13 ==> Get(m, Letters[j]).result == Some(Numerals[j])
  {
    var keys, values := Letters, Numerals;
    LettersDistinct();
    m := New(MapKind, DefaultLoad, DefaultCapacity);
    var i := 0;
    while i < 13
      invariant 0 <= i <= 13
      invariant IsMap(m) && m.load == DefaultLoad && m.size == i
      invariant m.capacity == FitCapacity(i, DefaultCapacity, DefaultLoad)
      invariant forall j :: 0 <= j < i ==> keys[j] in Contents(m) && Contents(m)[keys[j]] == values[j]
      invariant forall j :: i <= j < 13 ==> keys[j] !in Contents(m)
    {
      FitCapacityCompose(i, i + 1, DefaultCapacity, DefaultLoad);
      m := Set(m, keys[i], values[i]);
      forall j | 0 <= j < 13
        ensures j <= i ==> keys[j] in Contents(m) && Contents(m)[keys[j]] == values[j]
        ensures j > i ==> keys[j] !in Contents(m)
      {
        if j != i {
          assert keys[j] != keys[i];
        }
      }
      i := i + 1;
    }
    DefaultThreshold();
  }

  lemma LettersDistinct()
    ensures forall j, k :: 0 <= j < k < 13 ==> Letters[j] != Letters[k]
  {
    forall j, k | 0 <= j < k < 13 ensures Letters[j] != Letters[k] {
      assert Letters[j][0] != Letters[k][0];
    }
  }

}

=== FILE: hash_set.dfy ===
/** The set variant: `add`, `clear` read as set operations, and the
    one-line text rendering, on top of the shared table engine. */
module HashSets {

  import opened Options
  import opened Text
  import opened Capacity
  import opened Hashing
  import opened HashTables

  /** A table built by `new HashSet(...)` and kept valid by every operation. */
  predicate IsSet(s: Table)
  {
    Valid(s) && s.kind == SetKind
  }

  /** `add(key)`: afterwards `has(key)` holds and membership of every other
      key is as before. A key already present leaves the table exactly as it
      was; a new key grows the size by one, after which the table is within
      its load factor at the first doubling of its capacity where it fits. */
  method Add(s: Table, key: string) returns (r: Table)
    requires IsSet(s)
    ensures IsSet(r) && r.load == s.load
    ensures Has(r, key).result
    ensures forall k :: k != key ==> Has(r, k).result == Has(s, k).result
    ensures key in Contents(s) ==> r == s
    ensures key !in Contents(s) ==> r.size == s.size + 1
    ensures Contents(r) == Contents(s)[key := "null"]
    ensures r.capacity == FitCapacity(r.size, s.capacity, s.load)
  {
    r := Put(s, key, None);
  }

  /** `clear()` on a set: no keys are listed and no key is a member; the
      capacity is kept. */
  lemma ClearEmpties(s: Table, key: string)
    requires IsSet(s)
    ensures IsSet(Clear(s)) && Clear(s).capacity == s.capacity
    ensures Keys(Clear(s)) == []
    ensures !Has(Clear(s), key).result
  {
    KeysCount(Clear(s));
  }

  /** `toString()`: `{}` for an empty set, otherwise the keys in `keys`
      order, separated by commas, between spaced braces (on one line unless
      a key holds a line break, see `OneLine`). */
  function ToString(s: Table): (r: string)
    requires WellFormed(s)
    ensures r == "{}" <==> s.size == 0
    ensures s.size > 0 ==> |r| >= 4 && r[..2] == "{ " && r[|r| - 2..] == " }"
  {
    if s.size == 0 then "{}"
    else
      var r := "{ " + Join(Keys(s), ", ") + " }";
      assert r[..2] == "{ " && r[|r| - 2..] == " }";
      r
  }

  /** Every member shows in the rendering. */
  lemma ShowsEveryKey(s: Table, key: string)
    requires WellFormed(s) && key in Contents(s)
    ensures Occurs(key, ToString(s))
  {
    KeysSpec(s);
    var i :| 0 <= i < |Keys(s)| && Keys(s)[i] == key;
    JoinShows(Keys(s), ", ", i);
    OccursInside(key, Join(Keys(s), ", "), "{ ", " }");
  }

  /** The rendering is a single line unless some member holds a line break. */
  lemma OneLine(s: Table)
    requires WellFormed(s)
    requires forall k :: k in Contents(s) ==> '\n' !in k
    ensures '\n' !in ToString(s)
  {
    if s.size > 0 {
      KeysSpec(s);
      JoinAvoids(Keys(s), ", ", '\n');
    }
  }

  /** The set of `a` and `b` at the default capacity renders as `{ a, b }`:
      `a` hashes to bucket 1 and `b` to bucket 2. */
  method RenderTwoKeys() returns (s: Table)
    ensures IsSet(s) && s.size == 2
    ensures ToString(s) == "{ a, b }"
  {
    var e := New(SetKind, DefaultLoad, DefaultCapacity);
    var s1 := Add(e, "a");
    assert Contents(s1) == map["a" := "null"] && s1.size == 1;
    s := Add(s1, "b");
    assert Contents(s) == map["a" := "null", "b" := "null"] && s.size == 2;
    assert s.capacity == FitCapacity(2, 16, DefaultLoad) == 16;
    TwoLettersRender(s);
  }

  /** A set holding exactly `a` and `b` in 16 buckets lists `a` first. */
  lemma TwoLettersRender(s: Table)
    requires IsSet(s) && s.capacity == 16
    requires Contents(s) == map["a" := "null", "b" := "null"] && s.size == 2
    ensures ToString(s) == "{ a, b }"
  {
    HashOfOneLetter("a");
    HashOfOneLetter("b");
    assert Hash("a", 16) == 97 % 16 == 1;
    assert Hash("b", 16) == 98 % 16 == 2;
    TwoKeysInOrder(s, "a", "null", "b", "null");
    JoinTwo("a", "b", ", ");
  }

}

=== FILE: hashing.dfy ===
/** The polynomial rolling hash that picks a key's bucket. */
module Hashing {

  /** The prime multiplier of the rolling hash. */
  const Multiplier: nat := 31

  /** The UTF-16 code units of one character, as `charCodeAt` sees them:
      one unit inside the Basic Multilingual Plane, a surrogate pair above it. */
  function CharUnits(c: char): (u: seq<int>)
    ensures 1 <= |u| <= 2
    ensures forall i :: 0 <= i < |u| ==> 0 <= u[i] < 0x1_0000
    ensures (c as int) < 0x1_0000 <==> u == [c as int]
    ensures (c as int) >= 0x1_0000 ==>
      && |u| == 2
      && 0xD800 <= u[0] < 0xDC00 && 0xDC00 <= u[1] < 0xE000
      && c as int == 0x1_0000 + (u[0] - 0xD800) * 0x400 + (u[1] - 0xDC00)
  {
    var n := c as int;
    if n < 0x1_0000 then [n]
    else [0xD800 + (n - 0x1_0000) / 0x400, 0xDC00 + (n - 0x1_0000) % 0x400]
  }

  /** The code units of a string; JavaScript's `length` counts these. */
  function CodeUnits(s: string): (u: seq<int>)
    ensures |u| >= |s|
    ensures forall i :: 0 <= i < |u| ==> 0 <= u[i] < 0x1_0000
  {
    if s == [] then [] else CharUnits(s[0]) + CodeUnits(s[1..])
  }

  /** `x % m` for a nonnegative `x`, by repeated subtraction; JavaScript's
      `%` and Dafny's agree on such operands (see `ReduceIsMod`). */
  function Reduce(x: nat, m: nat): (r: nat)
    requires m >= 1
    ensures r < m
    decreases x
  {
    if x < m then x else Reduce(x - m, m)
  }

  /** One turn of the loop of `hash`: `(31 * h + unit) % capacity`. */
  function Step(h: nat, unit: int, capacity: nat): (r: nat)
    requires capacity >= 1 && unit >= 0
    ensures r < capacity
  {
    Reduce(Multiplier * h + unit, capacity)
  }

  /** The loop turns for the code units of one character. */
  function Absorb(h: nat, c: char, capacity: nat): (r: nat)
    requires capacity >= 1
    ensures r < capacity
  {
    var u := CharUnits(c);
    if |u| == 1 then Step(h, u[0], capacity)
    else Step(Step(h, u[0], capacity), u[1], capacity)
  }

  /** `hash(key)`: starting from 0, every code unit of the key, left to
      right, turns `h` into `(31 * h + unit) % capacity`. Written by
      recursion on the key without its last character. */
  function Hash(key: string, capacity: nat): (r: nat)
    requires capacity >= 1
    ensures r < capacity
    decreases |key|
  {
    if key == [] then 0
    else Absorb(Hash(key[..|key| - 1], capacity), key[|key| - 1], capacity)
  }

  /** Reference definition: the same polynomial without any reduction,
      `sum of units[i] * 31^(n-1-i)` built by Horner's rule. */
  function Polynomial(h: int, units: seq<int>): int
    decreases |units|
  {
    if units == [] then h else Polynomial(Multiplier * h + units[0], units[1..])
  }

  /** Euclidean division is unique: a quotient and an in-range remainder
      that rebuild `x` are the ones `/` and `%` give. */
  lemma DivModUnique(x: int, q: int, r: int, m: int)
    requires m > 0 && 0 <= r < m && x == q * m + r
    ensures x % m == r
  {
    var d := q - x / m;
    assert x == (x / m) * m + x % m;
    assert d * m == x % m - r;
  }

  /** Horner's rule over a concatenation runs over the front, then on. */
  lemma {:induction false} PolynomialConcat(h: int, u: seq<int>, v: seq<int>)
    ensures Polynomial(h, u + v) == Polynomial(Polynomial(h, u), v)
    decreases |u|
  {
    if u == [] {
      assert u + v == v;
    } else {
      assert (u + v)[1..] == u[1..] + v;
      PolynomialConcat(Multiplier * h + u[0], u[1..], v);
    }
  }

  lemma {:induction false} CodeUnitsSnoc(s: string, c: char)
    ensures CodeUnits(s + [c]) == CodeUnits(s) + CharUnits(c)
    decreases |s|
  {
    if s == [] {
      assert [c][1..] == [];
    } else {
      assert (s + [c])[1..] == s[1..] + [c];
      CodeUnitsSnoc(s[1..], c);
    }
  }

  /** Repeated subtraction lands on the Euclidean remainder. */
  lemma {:induction false} ReduceIsMod(x: nat, m: nat)
    requires m >= 1
    ensures Reduce(x, m) == x % m
    decreases x
  {
    if x < m {
      DivModUnique(x, 0, x, m);
    } else {
      ReduceIsMod(x - m, m);
      DivModUnique(x, (x - m) / m + 1, (x - m) % m, m);
    }
  }

  /** Adding a multiple of the modulus leaves the residue alone. */
  lemma AddMultipleMod(x: int, k: int, m: int)
    requires m > 0
    ensures (x + k * m) % m == x % m
  {
    var q := x / m;
    assert x == q * m + x % m;
    assert x + k * m == (q + k) * m + x % m;
    DivModUnique(x + k * m, q + k, x % m, m);
  }

  /** One loop turn on a reduced hash gives the residue of the unreduced step. */
  lemma StepOfResidue(h: nat, unit: int, capacity: nat)
    requires capacity >= 1 && unit >= 0
    ensures Step(h % capacity, unit, capacity) == (Multiplier * h + unit) % capacity
  {
    var r, q := h % capacity, h / capacity;
    ReduceIsMod(Multiplier * r + unit, capacity);
    assert h == q * capacity + r;
    assert Multiplier * h + unit == (Multiplier * r + unit) + (Multiplier * q) * capacity;
    AddMultipleMod(Multiplier * r + unit, Multiplier * q, capacity);
  }

  /** Absorbing one character into the residue of `p` gives the residue of
      `p` carried on over that character's code units. */
  lemma AbsorbIsPolynomial(p: int, c: char, capacity: nat)
    requires capacity >= 1 && p >= 0
    ensures Absorb(p % capacity, c, capacity) == Polynomial(p, CharUnits(c)) % capacity
  {
    var u := CharUnits(c);
    StepOfResidue(p, u[0], capacity);
    var p1 := Multiplier * p + u[0];
    if |u| == 2 {
      StepOfResidue(p1, u[1], capacity);
      assert Polynomial(p, u) == Polynomial(p1, [u[1]]) by { assert u[1..] == [u[1]]; }
      assert Polynomial(p1, [u[1]]) == Multiplier * p1 + u[1] by { assert [u[1]][1..] == []; }
    } else {
      assert Polynomial(p, u) == p1 by { assert u[1..] == []; }
    }
  }

  /** `hash(key)` is the unreduced polynomial of the key's code units taken
      modulo the capacity: reducing after every character, as the loop of `hash`
      does, lands on the same residue as one final reduction, and the result
      is a valid bucket index. */
  lemma {:induction false} HashIsPolynomialMod(key: string, capacity: nat)
    requires capacity >= 1
    ensures Hash(key, capacity) == Polynomial(0, CodeUnits(key)) % capacity
    ensures 0 <= Hash(key, capacity) < capacity
    decreases |key|
  {
    if key == [] {
      DivModUnique(0, 0, 0, capacity);
    } else {
      var s := key[..|key| - 1];
      var c := key[|key| - 1];
      assert key == s + [c];
      HashIsPolynomialMod(s, capacity);
      var p := Polynomial(0, CodeUnits(s));
      PolynomialNonNegative(0, CodeUnits(s));
      CodeUnitsSnoc(s, c);
      PolynomialConcat(0, CodeUnits(s), CharUnits(c));
      AbsorbIsPolynomial(p, c, capacity);
    }
  }

  lemma {:induction false} PolynomialNonNegative(h: int, units: seq<int>)
    requires h >= 0 && forall i :: 0 <= i < |units| ==> units[i] >= 0
    ensures Polynomial(h, units) >= 0
    decreases |units|
  {
    if units != [] {
      PolynomialNonNegative(Multiplier * h + units[0], units[1..]);
    }
  }

  /** Hash determinism on "abc": the modulus is applied after every character. */
  lemma HashOfAbc(capacity: nat)
    requires capacity >= 1
    ensures Hash("abc", capacity)
         == (31 * ((31 * (97 % capacity) + 98) % capacity) + 99) % capacity
  {
    assert "abc"[..2] == "ab";
    assert "ab"[..1] == "a";
    assert "a"[..0] == "";
    var h1 := Hash("a", capacity);
    assert h1 == Step(0, 97, capacity);
    ReduceIsMod(97, capacity);
    var h2 := Hash("ab", capacity);
    assert h2 == Step(h1, 98, capacity);
    ReduceIsMod(31 * h1 + 98, capacity);
    assert Hash("abc", capacity) == Step(h2, 99, capacity);
    ReduceIsMod(31 * h2 + 99, capacity);
  }

}

=== FILE: tables.dfy ===
/** The bucketed hash table shared by the map and the set: the lazily
    allocated bucket array, `at`, the load check, insertion with resize,
    removal, clearing and the bucket-order projections. The map stores the
    text of each value; the set stores through `append(key)`, so each of its
    cells holds the text "null". */
module HashTables {

  import opened Options
  import opened Text
  import opened Hashing
  import opened Capacity
  import opened Nodes
  import Chains
  import Maps

  datatype Kind = MapKind | SetKind

  /** A table. A bucket slot is `None` until a key hashing to it is first
      looked at. */
  datatype Table = Table(
    kind: Kind,
    load: LoadFactor,
    capacity: nat,
    size: nat,
    buckets: seq<Option<Chains.Chain>>)

  /** What `at` returns: the table with the slot allocated, and the slot. */
  datatype Access = Access(table: Table, index: nat)

  /** A query's answer together with the table it leaves behind (queries go
      through `at`, which may allocate a slot). */
  datatype Answer<T> = Answer(table: Table, result: T)

  /** The chain held by a slot; an unallocated slot holds no cells. */
  function ChainOf(slot: Option<Chains.Chain>): Chains.Chain
  {
    match slot
    case Some(c) => c
    case None => []
  }

  /** Every cell of the table, bucket by bucket, head to tail. */
  function Flat(b: seq<Option<Chains.Chain>>): Chains.Chain
  {
    if b == [] then [] else ChainOf(b[0]) + Flat(b[1..])
  }

  /** The abstract contents: each stored key with its stored text. */
  function Contents(t: Table): map<string, string>
  {
    Chains.AsMap(Flat(t.buckets))
  }

  predicate Shaped(t: Table)
  {
    t.capacity >= 1 && |t.buckets| == t.capacity && Positive(t.load)
  }

  /** A chain may sit in bucket `index`: its keys are distinct and all hash
      to `index`; in a set every stored value is the text "null". */
  predicate Fits(c: Chains.Chain, index: int, capacity: nat, kind: Kind)
    requires capacity >= 1
  {
    && Chains.DistinctKeys(c)
    && (forall j :: 0 <= j < |c| ==> Hash(c[j].key, capacity) == index)
    && (kind == SetKind ==> forall j :: 0 <= j < |c| ==> c[j].value == "null")
  }

  /** Bucket `i` of a run of buckets whose first one is slot `o` fits its slot. */
  predicate BucketFits(b: seq<Option<Chains.Chain>>, i: int, o: int, capacity: nat, kind: Kind)
    requires capacity >= 1 && 0 <= i < |b|
  {
    Fits(ChainOf(b[i]), o + i, capacity, kind)
  }

  /** Every bucket of the run `b`, whose first one is slot `o`, fits its slot. */
  predicate AllFit(b: seq<Option<Chains.Chain>>, o: int, capacity: nat, kind: Kind)
    requires capacity >= 1
  {
    forall i :: 0 <= i < |b| ==> BucketFits(b, i, o, capacity, kind)
  }

  /** The table invariant: `buckets.length == capacity`, every key in bucket
      `hash(key)`, no key twice in a chain, `size` counts every cell. */
  predicate WellFormed(t: Table)
  {
    && Shaped(t)
    && AllFit(t.buckets, 0, t.capacity, t.kind)
    && t.size == |Flat(t.buckets)|
  }

  /** `isLoaded()`: `size / capacity > loadFactor`. */
  predicate IsLoaded(t: Table)
  {
    Exceeds(t.size, t.capacity, t.load)
  }

  /** `isLoaded()` is the floating-point test `size / capacity > loadFactor`,
      done here exactly on the rational load factor. */
  lemma IsLoadedIsRatio(t: Table)
    requires Shaped(t)
    ensures IsLoaded(t)
        <==> (t.size as real) / (t.capacity as real) > (t.load.num as real) / (t.load.den as real)
  {
    ExceedsIsRatioTest(t.size, t.capacity, t.load);
  }

  /** The invariant every public operation keeps: well formed and not over
      the load factor. */
  predicate Valid(t: Table)
  {
    WellFormed(t) && !IsLoaded(t)
  }

  /** The key of every pair is distinct. */
  predicate DistinctFirsts(pairs: seq<(string, Option<string>)>)
  {
    forall i, j :: 0 <= i < j < |pairs| ==> pairs[i].0 != pairs[j].0
  }

  /** What re-inserting `pairs` in order stores: each key with the text of
      its value. */
  function PairsMap(pairs: seq<(string, Option<string>)>): map<string, string>
  {
    if pairs == [] then map[] else PairsMap(pairs[1..])[pairs[0].0 := Str(pairs[0].1)]
  }

  // ----------------------------------------------------------------------
  // Construction and the bucket array

  /** `new HashMap(loadFactor, capacity)` / `new HashSet(...)`: empty, with
      `capacity` unallocated slots. */
  function New(kind: Kind, load: LoadFactor, capacity: nat): (t: Table)
    requires capacity >= 1 && Positive(load)
    ensures Valid(t) && t.kind == kind && t.load == load
    ensures t.capacity == capacity && |t.buckets| == capacity
    ensures forall i :: 0 <= i < capacity ==> t.buckets[i].None?
    ensures t.size == 0 && Contents(t) == map[]
  {
    var t := Table(kind, load, capacity, 0, seq(capacity, i => None));
    FlatAllEmpty(t.buckets);
    AllFitEmpty(t.buckets, capacity, kind);
    t
  }

  /** `at(key)`: the bucket of `key`, allocated if its slot was empty. The
      out-of-range throw cannot happen, because `hash` stays below
      `capacity == buckets.length`. No other slot changes and no cell moves. */
  function At(t: Table, key: string): (r: Access)
    requires WellFormed(t)
    ensures r.index == Hash(key, t.capacity) && r.index < |r.table.buckets|
    ensures WellFormed(r.table) && r.table.buckets[r.index].Some?
    ensures r.table.kind == t.kind && r.table.load == t.load
    ensures r.table.capacity == t.capacity && r.table.size == t.size
    ensures |r.table.buckets| == |t.buckets|
    ensures forall i :: 0 <= i < |t.buckets| && i != r.index ==> r.table.buckets[i] == t.buckets[i]
    ensures t.buckets[r.index].Some? ==> r.table == t
    ensures ChainOf(r.table.buckets[r.index]) == ChainOf(t.buckets[r.index])
    ensures Contents(r.table) == Contents(t)
  {
    var index := Hash(key, t.capacity);
    if index >= |t.buckets| then
      // the guard `index < 0 || index >= buckets.length`; a nat is never negative
      assert false; Access(t, index)
    else if t.buckets[index].None? then
      var t' := t.(buckets := t.buckets[index := Some([])]);
      FlatUpdate(t.buckets, index, Some([]));
      AllFitUpdate(t.buckets, index, Some([]), t.capacity, t.kind);
      Access(t', index)
    else
      Access(t, index)
  }

  // ----------------------------------------------------------------------
  // Insertion and resizing

  /** The first half of `set` / `add`: find the key in its bucket; append it
      and count it when absent; when present, overwrite the value in place
      (map) or leave the cell alone (set, whose cell already holds "null"). */
  function Insert(t: Table, key: string, value: Option<string>): (r: Table)
    requires WellFormed(t)
    requires t.kind == SetKind ==> value.None?
    ensures WellFormed(r)
    ensures r.kind == t.kind && r.load == t.load && r.capacity == t.capacity
    ensures r.size == if key in Contents(t) then t.size else t.size + 1
    ensures Contents(r) == Contents(t)[key := Str(value)]
    ensures t.kind == SetKind && key in Contents(t) ==> r == t
    ensures key in Contents(t) ==> |r.buckets| == |t.buckets|
    ensures key in Contents(t) ==>
              forall i :: 0 <= i < |t.buckets| && i != Hash(key, t.capacity) ==> r.buckets[i] == t.buckets[i]
  {
    var a := At(t, key);
    var chain := a.table.buckets[a.index].value;
    match Chains.FindIndex(chain, key)
    case None =>
      InsertNewFacts(a.table, key, chain, value);
      a.table.(buckets := a.table.buckets[a.index := Some(Chains.Append(chain, key, value))],
               size := a.table.size + 1)
    case Some(j) =>
      if t.kind == MapKind then
        InsertOverwriteFacts(a.table, key, chain, j, Str(value));
        a.table.(buckets := a.table.buckets[a.index := Some(chain[j := chain[j].(value := Str(value))])],
                 size := a.table.size)
      else
        InsertKeepFacts(a.table, key, chain);
        assert ChainOf(t.buckets[a.index]) != [];
        a.table
  }

  /** Where `set` / `add` acts before any resize: only the key's own bucket
      changes, and a new key's cell is appended at the tail of its chain. */
  lemma InsertLayout(t: Table, key: string, value: Option<string>)
    requires WellFormed(t) && (t.kind == SetKind ==> value.None?)
    ensures var r, h := Insert(t, key, value), Hash(key, t.capacity);
      && |r.buckets| == |t.buckets|
      && (forall i :: 0 <= i < |t.buckets| && i != h ==> r.buckets[i] == t.buckets[i])
      && (key !in Contents(t) ==> r.buckets[h] == Some(Chains.Append(ChainOf(t.buckets[h]), key, value)))
  {
  }

  /** `set(key, value)` / `add(key)`: insert, then resize if over the load
      factor. Afterwards the table is back under the load factor, its
      capacity is the first doubling at which the new size fits, and only
      the key's entry changed. */
  method Put(t: Table, key: string, value: Option<string>) returns (r: Table)
    requires Valid(t)
    requires t.kind == SetKind ==> value.None?
    ensures Valid(r)
    ensures r.kind == t.kind && r.load == t.load
    ensures r.size == if key in Contents(t) then t.size else t.size + 1
    ensures r.capacity == FitCapacity(r.size, t.capacity, t.load)
    ensures Contents(r) == Contents(t)[key := Str(value)]
    ensures t.kind == SetKind && key in Contents(t) ==> r == t
    ensures key in Contents(t) ==> r == Insert(t, key, value)
    ensures r.capacity == t.capacity ==> r == Insert(t, key, value)
    decreases PendingGrowth(t.size + 1, t.capacity, t.load), 1
  {
    var t1 := Insert(t, key, value);
    if IsLoaded(t1) {
      FitCapacityMonotone(t1.size, t.size + 1, t.capacity, t.load);
      r := Resize(t1);
    } else {
      r := t1;
    }
  }

  /** Overwriting the value of a present key happens in place: the cell
      keeps its bucket and its position in the chain, so `keys` lists the
      same keys in the same order. */
  lemma OverwriteKeepsKeys(t: Table, key: string, v: string)
    requires WellFormed(t) && t.kind == MapKind && key in Contents(t)
    ensures Keys(Insert(t, key, Some(v))) == Keys(t)
  {
    var i := Hash(key, t.capacity);
    HomeLookup(t, key);
    var chain := ChainOf(t.buckets[i]);
    assert t.buckets[i].Some?;
    var j := Chains.FindIndex(chain, key).value;
    var chain' := chain[j := chain[j].(value := v)];
    var r := Insert(t, key, Some(v));
    assert r.buckets == t.buckets[i := Some(chain')];
    FlatUpdate(t.buckets, i, Some(chain'));
    assert Chains.Keys(chain') == Chains.Keys(chain);
    Chains.KeysConcat(Flat(t.buckets[..i]), chain);
    Chains.KeysConcat(Flat(t.buckets[..i]) + chain, Flat(t.buckets[i + 1..]));
    Chains.KeysConcat(Flat(t.buckets[..i]), chain');
    Chains.KeysConcat(Flat(t.buckets[..i]) + chain', Flat(t.buckets[i + 1..]));
  }

  /** `resize()`: take the entries (map) or keys (set), clear the table,
      double the capacity, allocate a fresh bucket array and re-insert
      everything through `Put`. Nothing is lost or duplicated, the size is
      kept, and the capacity is the first doubling of twice the old one at
      which the entries fit (exactly twice the old one unless the load factor
      is so small that re-insertion resizes again). */
  method Resize(t: Table) returns (r: Table)
    requires WellFormed(t)
    ensures Valid(r)
    ensures r.kind == t.kind && r.load == t.load && r.size == t.size
    ensures |r.buckets| == r.capacity == FitCapacity(t.size, 2 * t.capacity, t.load)
    ensures !Exceeds(t.size, 2 * t.capacity, t.load) ==> r.capacity == 2 * t.capacity
    ensures Contents(r) == Contents(t)
    decreases PendingGrowth(t.size, t.capacity, t.load) + (if IsLoaded(t) then 0 else 1), 0
  {
    var pairs := Extract(t);
    var cleared := Clear(t);
    var emptied := cleared.(capacity := 2 * t.capacity, buckets := seq(2 * t.capacity, i => None));
    FlatAllEmpty(emptied.buckets);
    AllFitEmpty(emptied.buckets, emptied.capacity, emptied.kind);
    ExtractFacts(t);
    Maps.EmptyUnion(PairsMap(pairs));
    PendingGrowthAfterDoubling(t.size, t.capacity, t.load);
    r := Reinsert(emptied, pairs);
  }

  /** `pairs.forEach(... => this.set(...))`: re-insert each pair in order
      into a table that holds none of their keys. */
  method Reinsert(t: Table, pairs: seq<(string, Option<string>)>) returns (r: Table)
    requires Valid(t)
    requires DistinctFirsts(pairs)
    requires forall i :: 0 <= i < |pairs| ==> pairs[i].0 !in Contents(t)
    requires t.kind == SetKind ==> forall i :: 0 <= i < |pairs| ==> pairs[i].1.None?
    ensures Valid(r)
    ensures r.kind == t.kind && r.load == t.load
    ensures r.size == t.size + |pairs|
    ensures r.capacity == FitCapacity(t.size + |pairs|, t.capacity, t.load)
    ensures Contents(r) == Contents(t) + PairsMap(pairs)
    decreases PendingGrowth(t.size + |pairs|, t.capacity, t.load), 2, |pairs|
  {
    if pairs == [] {
      Maps.UnionEmpty(Contents(t));
      r := t;
    } else {
      var rest := pairs[1..];
      GrowthStep(t.size, t.size + |pairs|, t.capacity, t.load);
      var t1 := Put(t, pairs[0].0, pairs[0].1);
      assert t1.size == t.size + 1 && t1.size + |rest| == t.size + |pairs|;
      assert t1.capacity == FitCapacity(t.size + 1, t.capacity, t.load);
      ReinsertStep(Contents(t), Contents(t1), pairs);
      r := Reinsert(t1, rest);
    }
  }

  /** What `resize` re-inserts: the map's `entries` as key-value pairs, or
      the set's `keys` with the null value `add(key)` passes on. */
  function Extract(t: Table): (pairs: seq<(string, Option<string>)>)
    ensures |pairs| == |Flat(t.buckets)|
    ensures forall i :: 0 <= i < |pairs| ==>
              && pairs[i].0 == Flat(t.buckets)[i].key
              && (t.kind == MapKind ==> pairs[i].1 == Some(Flat(t.buckets)[i].value))
    ensures t.kind == SetKind ==> forall i :: 0 <= i < |pairs| ==> pairs[i].1.None?
  {
    match t.kind
    case MapKind =>
      var es := Entries(t);
      seq(|es|, i requires 0 <= i < |es| => (es[i].0, Some(es[i].1)))
    case SetKind =>
      var ks := Keys(t);
      seq(|ks|, i requires 0 <= i < |ks| => (ks[i], None))
  }

  // ----------------------------------------------------------------------
  // Queries, removal, clearing

  /** `get(key)` (map only): `find(key)` on the key's bucket, giving the
      stored text, or null when the key is absent. Only the lazy allocation
      of `at` can change the table, and it changes no entry and no count. */
  function Get(t: Table, key: string): (r: Answer<Option<string>>)
    requires WellFormed(t)
    ensures r.result == if key in Contents(t) then Some(Contents(t)[key]) else None
    ensures WellFormed(r.table) && Contents(r.table) == Contents(t)
    ensures r.table.size == t.size && r.table.capacity == t.capacity
    ensures r.table.kind == t.kind && r.table.load == t.load
    ensures r.table == At(t, key).table
  {
    var a := At(t, key);
    var chain := a.table.buckets[a.index].value;
    HomeLookup(a.table, key);
    Answer(a.table, match Chains.Find(chain, key)
      case None => None
      case Some(n) => Some(n.value))
  }

  /** `has(key)`: whether the key's bucket contains it. */
  function Has(t: Table, key: string): (r: Answer<bool>)
    requires WellFormed(t)
    ensures r.result <==> key in Contents(t)
    ensures WellFormed(r.table) && Contents(r.table) == Contents(t)
    ensures r.table.size == t.size && r.table.capacity == t.capacity
    ensures r.table.kind == t.kind && r.table.load == t.load
    ensures r.table == At(t, key).table
  {
    var a := At(t, key);
    HomeLookup(a.table, key);
    Answer(a.table, Chains.Contains(a.table.buckets[a.index].value, key))
  }

  /** `remove(key)`: remove the key from its bucket and uncount it if it was
      there. True iff the key was present; afterwards it is absent and every
      other entry is as before. */
  function Remove(t: Table, key: string): (r: Answer<bool>)
    requires Valid(t)
    ensures Valid(r.table)
    ensures r.table.kind == t.kind && r.table.load == t.load && r.table.capacity == t.capacity
    ensures r.result <==> key in Contents(t)
    ensures r.table.size == if r.result then t.size - 1 else t.size
    ensures Contents(r.table) == Contents(t) - {key}
  {
    var a := At(t, key);
    var chain := a.table.buckets[a.index].value;
    var removal := Chains.Remove(chain, key);
    Home(a.table, key);
    var size := if removal.removed then a.table.size - 1 else a.table.size;
    RemoveFacts(a.table, key, chain, size);
    ExceedsMonotone(size, t.size, t.capacity, t.capacity, t.load);
    Answer(a.table.(buckets := a.table.buckets[a.index := Some(removal.chain)], size := size),
           removal.removed)
  }

  /** Where `remove` acts: only the key's own bucket changes, and it holds
      what `LinkedList.remove` leaves of its chain; the other cells keep
      their buckets and their order. An absent key leaves exactly the table
      `at` leaves. */
  lemma RemoveLayout(t: Table, key: string)
    requires Valid(t)
    ensures var r, h := Remove(t, key), Hash(key, t.capacity);
      && |r.table.buckets| == |t.buckets|
      && (forall i :: 0 <= i < |t.buckets| && i != h ==> r.table.buckets[i] == t.buckets[i])
      && r.table.buckets[h] == Some(Chains.Remove(ChainOf(t.buckets[h]), key).chain)
      && (!r.result ==> r.table == At(t, key).table)
  {
  }

  /** `clear()`: every allocated chain is emptied (slots stay allocated) and
      the size drops to 0; capacity and load factor are kept. */
  function Clear(t: Table): (r: Table)
    requires WellFormed(t)
    ensures Valid(r) && r.size == 0 && Contents(r) == map[]
    ensures r.kind == t.kind && r.load == t.load && r.capacity == t.capacity
    ensures |r.buckets| == |t.buckets|
    ensures forall i :: 0 <= i < |t.buckets| ==> r.buckets[i].Some? == t.buckets[i].Some?
  {
    var b := seq(|t.buckets|, i requires 0 <= i < |t.buckets| =>
      match t.buckets[i]
      case None => None
      case Some(c) => Some(Chains.Clear(c)));
    FlatAllEmpty(b);
    AllFitEmpty(b, t.capacity, t.kind);
    t.(buckets := b, size := 0)
  }

  /** The `length` getter. It is the number of cells and the number of
      distinct keys stored. */
  function Length(t: Table): (n: nat)
    requires WellFormed(t)
    ensures n == |Flat(t.buckets)| == |Contents(t)|
  {
    FlatDistinct(t.buckets, 0, t.capacity, t.kind);
    Chains.AsMapSize(Flat(t.buckets));
    t.size
  }

  /** The `keys` getter: each allocated bucket's keys, in bucket order. */
  function Keys(t: Table): (r: seq<string>)
  {
    KeysOf(t.buckets)
  }

  function KeysOf(b: seq<Option<Chains.Chain>>): (r: seq<string>)
    ensures r == Chains.Keys(Flat(b))
  {
    if b == [] then []
    else
      Chains.KeysConcat(ChainOf(b[0]), Flat(b[1..]));
      match b[0]
      case None => KeysOf(b[1..])
      case Some(c) => Chains.Keys(c) + KeysOf(b[1..])
  }

  /** The `values` getter: each allocated bucket's values, in bucket order. */
  function Values(t: Table): (r: seq<string>)
  {
    ValuesOf(t.buckets)
  }

  function ValuesOf(b: seq<Option<Chains.Chain>>): (r: seq<string>)
    ensures r == Chains.Values(Flat(b))
  {
    if b == [] then []
    else
      Chains.KeysConcat(ChainOf(b[0]), Flat(b[1..]));
      match b[0]
      case None => ValuesOf(b[1..])
      case Some(c) => Chains.Values(c) + ValuesOf(b[1..])
  }

  /** The `entries` getter: each allocated bucket's pairs, in bucket order. */
  function Entries(t: Table): (r: seq<(string, string)>)
  {
    EntriesOf(t.buckets)
  }

  function EntriesOf(b: seq<Option<Chains.Chain>>): (r: seq<(string, string)>)
    ensures r == Chains.Entries(Flat(b))
  {
    if b == [] then []
    else
      Chains.KeysConcat(ChainOf(b[0]), Flat(b[1..]));
      match b[0]
      case None => EntriesOf(b[1..])
      case Some(c) => Chains.Entries(c) + EntriesOf(b[1..])
  }

  // ----------------------------------------------------------------------
  // Properties of the projections

  /** `keys` lists every stored key once, `size` of them, grouped by bucket
      in increasing bucket index. */
  lemma KeysSpec(t: Table)
    requires WellFormed(t)
    ensures |Keys(t)| == t.size == |Contents(t)|
    ensures forall i, j :: 0 <= i < j < |Keys(t)| ==> Keys(t)[i] != Keys(t)[j]
    ensures forall k :: k in Keys(t) <==> k in Contents(t)
    ensures forall i, j :: 0 <= i < j < |Keys(t)|
              ==> Hash(Keys(t)[i], t.capacity) <= Hash(Keys(t)[j], t.capacity)
  {
    KeysDistinct(t);
    KeysMembers(t);
    FlatSorted(t.buckets, 0, t.capacity, t.kind);
  }

  /** `keys` has one entry per cell, none repeated. */
  lemma KeysDistinct(t: Table)
    requires WellFormed(t)
    ensures |Keys(t)| == t.size == |Contents(t)|
    ensures forall i, j :: 0 <= i < j < |Keys(t)| ==> Keys(t)[i] != Keys(t)[j]
  {
    var c := Flat(t.buckets);
    FlatDistinct(t.buckets, 0, t.capacity, t.kind);
    Chains.DistinctKeysPairwise(c);
    Chains.AsMapSize(c);
  }

  /** `keys` lists exactly the stored keys. */
  lemma KeysMembers(t: Table)
    requires WellFormed(t)
    ensures forall k :: k in Keys(t) <==> k in Contents(t)
  {
    var c := Flat(t.buckets);
    forall k ensures k in Keys(t) <==> k in Contents(t) {
      Chains.AsMapHasKey(c, k);
      if k in Keys(t) {
        var i :| 0 <= i < |Keys(t)| && Keys(t)[i] == k;
        assert c[i].key == k;
      }
    }
  }

  /** Two positions of `keys`, read off `KeysSpec` one at a time. */
  lemma KeysAt(t: Table, i: nat, j: nat)
    requires WellFormed(t) && i < j < |Keys(t)|
    ensures Keys(t)[i] != Keys(t)[j]
    ensures Keys(t)[i] in Contents(t) && Keys(t)[j] in Contents(t)
    ensures Hash(Keys(t)[i], t.capacity) <= Hash(Keys(t)[j], t.capacity)
  {
    KeysSpec(t);
  }

  lemma KeysCount(t: Table)
    requires WellFormed(t)
    ensures |Keys(t)| == t.size == |Contents(t)|
  {
    KeysSpec(t);
  }

  /** A table holding exactly two keys lists first the one in the lower
      bucket. */
  lemma TwoKeysInOrder(m: Table, x: string, u: string, y: string, v: string)
    requires WellFormed(m) && x != y
    requires Contents(m) == map[x := u, y := v]
    requires Hash(x, m.capacity) < Hash(y, m.capacity)
    ensures Keys(m) == [x, y]
  {
    KeysSpec(m);
    TwoKeysListed(Keys(m), Contents(m), x, u, y, v, m.capacity);
  }

  /** Distinct keys listed by increasing hash, exactly those of a two-key
      map, are the lower-hashing key then the other. */
  lemma TwoKeysListed(ks: seq<string>, c: map<string, string>, x: string, u: string,
                      y: string, v: string, capacity: nat)
    requires capacity >= 1 && x != y && c == map[x := u, y := v]
    requires |ks| == |c|
    requires forall k :: k in ks <==> k in c
    requires forall i, j :: 0 <= i < j < |ks| ==> ks[i] != ks[j]
    requires forall i, j :: 0 <= i < j < |ks| ==> Hash(ks[i], capacity) <= Hash(ks[j], capacity)
    requires Hash(x, capacity) < Hash(y, capacity)
    ensures ks == [x, y]
  {
    Maps.TwoKeyMap(c, x, u, y, v);
    assert ks[0] in c && ks[1] in c;
    PairInOrder(ks, x, y, capacity);
  }

  /** Two distinct keys drawn from `x` and `y`, listed by increasing hash,
      are `x` then `y` when `x` hashes lower. */
  lemma PairInOrder(ks: seq<string>, x: string, y: string, capacity: nat)
    requires capacity >= 1 && |ks| == 2 && ks[0] != ks[1]
    requires ks[0] == x || ks[0] == y
    requires ks[1] == x || ks[1] == y
    requires Hash(ks[0], capacity) <= Hash(ks[1], capacity)
    requires Hash(x, capacity) < Hash(y, capacity)
    ensures ks == [x, y]
  {
  }

  /** A one-letter key at the default capacity lands in bucket
      `code % 16`. */
  lemma HashOfOneLetter(key: string)
    requires |key| == 1 && key[0] as int < 0x1_0000
    ensures Hash(key, 16) == (key[0] as int) % 16
  {
    assert key[..0] == "";
    ReduceIsMod(key[0] as int, 16);
  }

  /** `values` and `entries` follow `keys` position by position, each value
      being the one stored for its key. */
  lemma ProjectionsSpec(t: Table)
    requires WellFormed(t)
    ensures |Values(t)| == |Entries(t)| == |Keys(t)| == t.size
    ensures forall i :: 0 <= i < |Keys(t)| ==>
              && Keys(t)[i] in Contents(t)
              && Values(t)[i] == Contents(t)[Keys(t)[i]]
              && Entries(t)[i] == (Keys(t)[i], Values(t)[i])
  {
    FlatDistinct(t.buckets, 0, t.capacity, t.kind);
    Chains.AsMapOfDistinct(Flat(t.buckets));
  }

  // ----------------------------------------------------------------------
  // Proof helpers

  lemma {:induction false} FlatConcat(a: seq<Option<Chains.Chain>>, b: seq<Option<Chains.Chain>>)
    ensures Flat(a + b) == Flat(a) + Flat(b)
    decreases |a|
  {
    if a != [] {
      assert (a + b)[1..] == a[1..] + b;
      FlatConcat(a[1..], b);
    } else {
      assert a + b == b;
    }
  }

  /** Replacing one slot replaces its cells in the flattened sequence. */
  lemma FlatUpdate(b: seq<Option<Chains.Chain>>, i: nat, s: Option<Chains.Chain>)
    requires i < |b|
    ensures Flat(b) == Flat(b[..i]) + ChainOf(b[i]) + Flat(b[i + 1..])
    ensures Flat(b[i := s]) == Flat(b[..i]) + ChainOf(s) + Flat(b[i + 1..])
    ensures |Flat(b[i := s])| + |ChainOf(b[i])| == |Flat(b)| + |ChainOf(s)|
  {
    var b' := b[i := s];
    assert b == b[..i] + ([b[i]] + b[i + 1..]);
    assert b' == b[..i] + ([s] + b[i + 1..]);
    FlatConcat(b[..i], [b[i]] + b[i + 1..]);
    FlatConcat(b[..i], [s] + b[i + 1..]);
    assert ([b[i]] + b[i + 1..])[1..] == b[i + 1..];
    assert ([s] + b[i + 1..])[1..] == b[i + 1..];
  }

  lemma {:induction false} FlatAllEmpty(b: seq<Option<Chains.Chain>>)
    requires forall i :: 0 <= i < |b| ==> ChainOf(b[i]) == []
    ensures Flat(b) == []
    decreases |b|
  {
    if b != [] {
      assert forall i :: 0 <= i < |b| - 1 ==> b[1..][i] == b[i + 1];
      FlatAllEmpty(b[1..]);
    }
  }

  /** Buckets that hold no cells fit any slots. */
  lemma AllFitEmpty(b: seq<Option<Chains.Chain>>, capacity: nat, kind: Kind)
    requires capacity >= 1
    requires forall i :: 0 <= i < |b| ==> ChainOf(b[i]) == []
    ensures AllFit(b, 0, capacity, kind)
  {
    forall i | 0 <= i < |b| ensures BucketFits(b, i, 0, capacity, kind) {
      assert Chains.DistinctKeys(ChainOf(b[i]));
    }
  }

  /** A slice of a fitting run fits from its own first slot. */
  lemma AllFitSlice(b: seq<Option<Chains.Chain>>, o: int, lo: int, hi: int, capacity: nat, kind: Kind)
    requires capacity >= 1 && AllFit(b, o, capacity, kind) && 0 <= lo <= hi <= |b|
    ensures AllFit(b[lo..hi], o + lo, capacity, kind)
  {
    var s, o' := b[lo..hi], o + lo;
    forall i | 0 <= i < |s| ensures BucketFits(s, i, o', capacity, kind) {
      assert s[i] == b[lo + i];
      assert BucketFits(b, lo + i, o, capacity, kind);
    }
  }

  /** Putting a chain that fits slot `i` there keeps the whole array fitting. */
  lemma AllFitUpdate(b: seq<Option<Chains.Chain>>, i: nat, s: Option<Chains.Chain>, capacity: nat, kind: Kind)
    requires capacity >= 1 && AllFit(b, 0, capacity, kind) && i < |b|
    requires Fits(ChainOf(s), i, capacity, kind)
    ensures AllFit(b[i := s], 0, capacity, kind)
  {
    var b' := b[i := s];
    forall p | 0 <= p < |b'| ensures BucketFits(b', p, 0, capacity, kind) {
      if p != i {
        assert BucketFits(b, p, 0, capacity, kind);
      }
    }
  }

  /** The first bucket of a fitting run fits its slot, and the others fit on. */
  lemma AllFitTail(b: seq<Option<Chains.Chain>>, o: int, capacity: nat, kind: Kind)
    requires capacity >= 1 && AllFit(b, o, capacity, kind) && b != []
    ensures Fits(ChainOf(b[0]), o, capacity, kind)
    ensures AllFit(b[1..], o + 1, capacity, kind)
  {
    assert BucketFits(b, 0, o, capacity, kind);
    AllFitSlice(b, o, 1, |b|, capacity, kind);
    assert b[1..|b|] == b[1..];
  }

  /** A run of fitting buckets starting at slot `o` flattens to cells whose
      hashes lie in `[o, o + |b|)`. */
  lemma {:induction false} FlatRange(b: seq<Option<Chains.Chain>>, o: int, capacity: nat, kind: Kind)
    requires capacity >= 1 && AllFit(b, o, capacity, kind)
    ensures forall j :: 0 <= j < |Flat(b)| ==> o <= Hash(Flat(b)[j].key, capacity) < o + |b|
    decreases |b|
  {
    if b != [] {
      var a := ChainOf(b[0]);
      var rest := Flat(b[1..]);
      AllFitTail(b, o, capacity, kind);
      FlatRange(b[1..], o + 1, capacity, kind);
      var f := Flat(b);
      assert f == a + rest;
      forall j | 0 <= j < |f| ensures o <= Hash(f[j].key, capacity) < o + |b| {
        if j < |a| {
          assert f[j] == a[j];
        } else {
          assert f[j] == rest[j - |a|];
        }
      }
    }
  }

  /** A run of fitting buckets flattens to cells whose hashes never decrease. */
  lemma {:induction false} FlatSorted(b: seq<Option<Chains.Chain>>, o: int, capacity: nat, kind: Kind)
    requires capacity >= 1 && AllFit(b, o, capacity, kind)
    ensures forall i, j :: 0 <= i < j < |Flat(b)|
              ==> Hash(Flat(b)[i].key, capacity) <= Hash(Flat(b)[j].key, capacity)
    decreases |b|
  {
    if b != [] {
      var a := ChainOf(b[0]);
      var rest := Flat(b[1..]);
      AllFitTail(b, o, capacity, kind);
      FlatSorted(b[1..], o + 1, capacity, kind);
      FlatRange(b[1..], o + 1, capacity, kind);
      var f := Flat(b);
      assert f == a + rest;
      forall i, j | 0 <= i < j < |f|
        ensures Hash(f[i].key, capacity) <= Hash(f[j].key, capacity)
      {
        if j < |a| {
          assert f[i] == a[i] && f[j] == a[j];
        } else if i < |a| {
          assert f[i] == a[i] && f[j] == rest[j - |a|];
        } else {
          assert f[i] == rest[i - |a|] && f[j] == rest[j - |a|];
        }
      }
    }
  }

  /** A run of fitting buckets flattens to cells with distinct keys. */
  lemma {:induction false} FlatDistinct(b: seq<Option<Chains.Chain>>, o: int, capacity: nat, kind: Kind)
    requires capacity >= 1 && AllFit(b, o, capacity, kind)
    ensures Chains.DistinctKeys(Flat(b))
    decreases |b|
  {
    if b != [] {
      var a := ChainOf(b[0]);
      var rest := Flat(b[1..]);
      AllFitTail(b, o, capacity, kind);
      FlatDistinct(b[1..], o + 1, capacity, kind);
      FlatRange(b[1..], o + 1, capacity, kind);
      assert forall i :: 0 <= i < |a| ==> !Chains.HasKey(rest, a[i].key);
      Chains.DistinctConcat(a, rest);
    }
  }

  /** A run of fitting set buckets flattens to cells that all hold "null". */
  lemma {:induction false} FlatNulls(b: seq<Option<Chains.Chain>>, o: int, capacity: nat)
    requires capacity >= 1 && AllFit(b, o, capacity, SetKind)
    ensures forall j :: 0 <= j < |Flat(b)| ==> Flat(b)[j].value == "null"
    decreases |b|
  {
    if b != [] {
      var a := ChainOf(b[0]);
      var rest := Flat(b[1..]);
      AllFitTail(b, o, capacity, SetKind);
      FlatNulls(b[1..], o + 1, capacity);
      var f := Flat(b);
      assert f == a + rest;
      forall j | 0 <= j < |f| ensures f[j].value == "null" {
        if j < |a| {
          assert f[j] == a[j];
        } else {
          assert f[j] == rest[j - |a|];
        }
      }
    }
  }

  /** The bucket of `key` exists, holds no more cells than the table, and
      no other bucket holds `key`. */
  lemma Home(t: Table, key: string)
    requires WellFormed(t)
    ensures Hash(key, t.capacity) < |t.buckets|
    ensures key !in Chains.AsMap(Flat(t.buckets[..Hash(key, t.capacity)]))
    ensures key !in Chains.AsMap(Flat(t.buckets[Hash(key, t.capacity) + 1..]))
    ensures |ChainOf(t.buckets[Hash(key, t.capacity)])| <= t.size
  {
    FlatSplit(t.buckets, Hash(key, t.capacity));
    NotBefore(t, key);
    NotAfter(t, key);
  }

  /** The map view of the buckets cut around slot `i`. */
  lemma FlatSplit(b: seq<Option<Chains.Chain>>, i: nat)
    requires i < |b|
    ensures Chains.AsMap(Flat(b))
         == Chains.AsMap(Flat(b[i + 1..])) + (Chains.AsMap(ChainOf(b[i])) + Chains.AsMap(Flat(b[..i])))
    ensures |ChainOf(b[i])| <= |Flat(b)|
  {
    var x, y := Flat(b[..i]), Flat(b[i + 1..]);
    FlatUpdate(b, i, b[i]);
    Chains.AsMapConcat(x + ChainOf(b[i]), y);
    Chains.AsMapConcat(x, ChainOf(b[i]));
  }

  /** No bucket before the key's own holds the key. */
  lemma NotBefore(t: Table, key: string)
    requires WellFormed(t)
    ensures key !in Chains.AsMap(Flat(t.buckets[..Hash(key, t.capacity)]))
  {
    var i := Hash(key, t.capacity);
    var pre := t.buckets[..i];
    AllFitSlice(t.buckets, 0, 0, i, t.capacity, t.kind);
    assert t.buckets[0..i] == pre;
    FlatRange(pre, 0, t.capacity, t.kind);
    Chains.AsMapHasKey(Flat(pre), key);
  }

  /** No bucket after the key's own holds the key. */
  lemma NotAfter(t: Table, key: string)
    requires WellFormed(t)
    ensures key !in Chains.AsMap(Flat(t.buckets[Hash(key, t.capacity) + 1..]))
  {
    var i := Hash(key, t.capacity);
    var post := t.buckets[i + 1..];
    AllFitSlice(t.buckets, 0, i + 1, |t.buckets|, t.capacity, t.kind);
    assert t.buckets[i + 1..|t.buckets|] == post;
    FlatRange(post, i + 1, t.capacity, t.kind);
    Chains.AsMapHasKey(Flat(post), key);
  }

  /** What the key's own chain says about the key is what the contents say. */
  lemma HomeLookup(t: Table, key: string)
    requires WellFormed(t)
    ensures var c := ChainOf(t.buckets[Hash(key, t.capacity)]);
      && (key in Contents(t) <==> Chains.HasKey(c, key))
      && Chains.ValueOf(c, key) == if key in Contents(t) then Some(Contents(t)[key]) else None
  {
    var h := Hash(key, t.capacity);
    Home(t, key);
    FlatSplit(t.buckets, h);
    ChainLookup(Contents(t), Chains.AsMap(Flat(t.buckets[h + 1..])), ChainOf(t.buckets[h]),
                Chains.AsMap(Flat(t.buckets[..h])), key);
  }

  /** A key that only the chain `c` among the parts of `whole` may hold is
      looked up in `c`. */
  lemma ChainLookup(whole: map<string, string>, a: map<string, string>, c: Chains.Chain,
                    b: map<string, string>, key: string)
    requires whole == a + (Chains.AsMap(c) + b)
    requires key !in a && key !in b
    ensures key in whole <==> Chains.HasKey(c, key)
    ensures Chains.ValueOf(c, key) == if key in whole then Some(whole[key]) else None
  {
    Maps.MiddleLookup(whole, a, Chains.AsMap(c), b, key);
    Chains.AsMapHasKey(c, key);
    Chains.AsMapValueOf(c, key);
  }

  /** Putting a fitting chain into slot `i` keeps the table well formed. */
  lemma ReplaceWellFormed(t: Table, i: nat, c: Chains.Chain, size: nat)
    requires WellFormed(t) && i < |t.buckets|
    requires Fits(c, i, t.capacity, t.kind)
    requires size + |ChainOf(t.buckets[i])| == t.size + |c|
    ensures WellFormed(t.(buckets := t.buckets[i := Some(c)], size := size))
  {
    FlatUpdate(t.buckets, i, Some(c));
    AllFitUpdate(t.buckets, i, Some(c), t.capacity, t.kind);
  }

  /** The contents of the buckets with slot `i` replaced: the slots after
      it, then the new chain, then the slots before it. */
  lemma ReplaceContents(b: seq<Option<Chains.Chain>>, i: nat, c: Chains.Chain)
    requires i < |b|
    ensures Chains.AsMap(Flat(b[i := Some(c)]))
         == Chains.AsMap(Flat(b[i + 1..])) + (Chains.AsMap(c) + Chains.AsMap(Flat(b[..i])))
  {
    var b' := b[i := Some(c)];
    FlatSplit(b', i);
    assert b'[..i] == b[..i] && b'[i + 1..] == b[i + 1..];
  }

  /** Swapping the chain of `key`'s bucket for a fitting one: the table stays
      well formed, and the contents before and after differ only in the
      middle part, the map of that chain, which no other part shares `key`
      with. */
  lemma SwapHome(t: Table, t': Table, key: string, chain: Chains.Chain, c: Chains.Chain)
    returns (before: map<string, string>, after: map<string, string>)
    requires WellFormed(t)
    requires t.buckets[Hash(key, t.capacity)] == Some(chain)
    requires Fits(c, Hash(key, t.capacity), t.capacity, t.kind)
    requires t' == t.(buckets := t.buckets[Hash(key, t.capacity) := Some(c)], size := t'.size)
    requires t'.size + |chain| == t.size + |c|
    ensures WellFormed(t')
    ensures key !in before && key !in after
    ensures Contents(t) == after + (Chains.AsMap(chain) + before)
    ensures Contents(t') == after + (Chains.AsMap(c) + before)
  {
    var i := Hash(key, t.capacity);
    before, after := Chains.AsMap(Flat(t.buckets[..i])), Chains.AsMap(Flat(t.buckets[i + 1..]));
    ReplaceWellFormed(t, i, c, t'.size);
    ReplaceContents(t.buckets, i, c);
    Home(t, key);
    FlatSplit(t.buckets, i);
  }

  /** Appending a key that hashes to the bucket and is not yet in it keeps
      the chain fitting. */
  lemma FitsAppend(chain: Chains.Chain, i: nat, capacity: nat, kind: Kind, key: string, value: Option<string>)
    requires capacity >= 1 && Fits(chain, i, capacity, kind)
    requires Hash(key, capacity) == i && !Chains.HasKey(chain, key)
    requires kind == SetKind ==> value.None?
    ensures Fits(Chains.Append(chain, key, value), i, capacity, kind)
  {
    var c := Chains.Append(chain, key, value);
    Chains.DistinctAppend(chain, key, value);
    assert forall j :: 0 <= j < |c| ==> c[j] == if j < |chain| then chain[j] else NewNode(key, value);
  }

  /** Changing a value keeps a map's chain fitting. */
  lemma FitsOverwrite(chain: Chains.Chain, i: nat, capacity: nat, j: nat, v: string)
    requires capacity >= 1 && Fits(chain, i, capacity, MapKind) && j < |chain|
    ensures Fits(chain[j := chain[j].(value := v)], i, capacity, MapKind)
  {
    var c := chain[j := chain[j].(value := v)];
    Chains.DistinctOverwrite(chain, j, v);
    assert forall p :: 0 <= p < |c| ==> c[p].key == chain[p].key;
  }

  /** Removing a key keeps the chain fitting. */
  lemma FitsRemove(chain: Chains.Chain, i: nat, capacity: nat, kind: Kind, key: string)
    requires capacity >= 1 && Fits(chain, i, capacity, kind)
    ensures Fits(Chains.Remove(chain, key).chain, i, capacity, kind)
  {
    var removal := Chains.Remove(chain, key);
    Chains.RemoveFromDistinct(chain, key);
    if removal.removed {
      var p := Chains.FindIndex(chain, key).value;
      assert forall j :: 0 <= j < |removal.chain| ==> removal.chain[j] == chain[if j < p then j else j + 1];
    }
  }

  lemma InsertNewFacts(t: Table, key: string, chain: Chains.Chain, value: Option<string>)
    requires WellFormed(t)
    requires t.buckets[Hash(key, t.capacity)] == Some(chain)
    requires Chains.FindIndex(chain, key).None?
    requires t.kind == SetKind ==> value.None?
    ensures var t' := t.(buckets := t.buckets[Hash(key, t.capacity) := Some(Chains.Append(chain, key, value))],
                         size := t.size + 1);
      && WellFormed(t')
      && key !in Contents(t)
      && Contents(t') == Contents(t)[key := Str(value)]
  {
    var c := Chains.Append(chain, key, value);
    var t' := t.(buckets := t.buckets[Hash(key, t.capacity) := Some(c)], size := t.size + 1);
    assert Fits(c, Hash(key, t.capacity), t.capacity, t.kind) by {
      assert BucketFits(t.buckets, Hash(key, t.capacity), 0, t.capacity, t.kind);
      FitsAppend(chain, Hash(key, t.capacity), t.capacity, t.kind, key, value);
    }
    var before, after := SwapHome(t, t', key, chain, c);
    Chains.AsMapAppend(chain, key, value);
    Chains.AsMapHasKey(chain, key);
    Maps.RebindMiddle(Contents(t), Contents(t'), after, Chains.AsMap(chain), before, key, Str(value));
  }

  lemma InsertOverwriteFacts(t: Table, key: string, chain: Chains.Chain, j: nat, v: string)
    requires WellFormed(t) && t.kind == MapKind
    requires t.buckets[Hash(key, t.capacity)] == Some(chain)
    requires Chains.FindIndex(chain, key) == Some(j)
    ensures var t' := t.(buckets := t.buckets[Hash(key, t.capacity) := Some(chain[j := chain[j].(value := v)])],
                         size := t.size);
      && WellFormed(t')
      && key in Contents(t)
      && Contents(t') == Contents(t)[key := v]
  {
    var c := chain[j := chain[j].(value := v)];
    var t' := t.(buckets := t.buckets[Hash(key, t.capacity) := Some(c)], size := t.size);
    assert Fits(c, Hash(key, t.capacity), t.capacity, t.kind) by {
      assert BucketFits(t.buckets, Hash(key, t.capacity), 0, t.capacity, t.kind);
      FitsOverwrite(chain, Hash(key, t.capacity), t.capacity, j, v);
    }
    var before, after := SwapHome(t, t', key, chain, c);
    Chains.AsMapHasKey(chain, key);
    Chains.AsMapOverwrite(chain, key, j, v);
    Maps.RebindMiddle(Contents(t), Contents(t'), after, Chains.AsMap(chain), before, key, v);
  }

  /** In a set, a key already present holds "null", so adding it again
      changes nothing. */
  lemma InsertKeepFacts(t: Table, key: string, chain: Chains.Chain)
    requires WellFormed(t) && t.kind == SetKind
    requires t.buckets[Hash(key, t.capacity)] == Some(chain)
    requires Chains.FindIndex(chain, key).Some?
    ensures key in Contents(t)
    ensures Contents(t) == Contents(t)[key := Str(None)]
  {
    var i := Hash(key, t.capacity);
    assert BucketFits(t.buckets, i, 0, t.capacity, t.kind);
    HomeLookup(t, key);
  }

  lemma RemoveFacts(t: Table, key: string, chain: Chains.Chain, size: nat)
    requires WellFormed(t)
    requires t.buckets[Hash(key, t.capacity)] == Some(chain)
    requires size + (if Chains.HasKey(chain, key) then 1 else 0) == t.size
    ensures Chains.Remove(chain, key).removed <==> key in Contents(t)
    ensures var t' := t.(buckets := t.buckets[Hash(key, t.capacity) := Some(Chains.Remove(chain, key).chain)],
                         size := size);
      && WellFormed(t')
      && Contents(t') == Contents(t) - {key}
  {
    var removal := Chains.Remove(chain, key);
    var t' := t.(buckets := t.buckets[Hash(key, t.capacity) := Some(removal.chain)], size := size);
    assert removal.removed <==> key in Contents(t) by {
      HomeLookup(t, key);
    }
    assert BucketFits(t.buckets, Hash(key, t.capacity), 0, t.capacity, t.kind);
    FitsRemove(chain, Hash(key, t.capacity), t.capacity, t.kind, key);
    var before, after := SwapHome(t, t', key, chain, removal.chain);
    Chains.AsMapRemove(chain, key);
    Maps.DropMiddle(Contents(t), Contents(t'), after, Chains.AsMap(chain), before, key);
  }

  /** A key none of the pairs carries is not in their map. */
  lemma {:induction false} PairsMapLacks(pairs: seq<(string, Option<string>)>, k: string)
    requires forall i :: 0 <= i < |pairs| ==> pairs[i].0 != k
    ensures k !in PairsMap(pairs)
    decreases |pairs|
  {
    if pairs != [] {
      assert forall i :: 0 <= i < |pairs| - 1 ==> pairs[1..][i] == pairs[i + 1];
      PairsMapLacks(pairs[1..], k);
    }
  }

  /** One turn of the re-insertion: after the first pair is stored, the
      remaining pairs are still distinct and new, and storing them completes
      the union. */
  lemma ReinsertStep(before: map<string, string>, after: map<string, string>,
                     pairs: seq<(string, Option<string>)>)
    requires pairs != [] && DistinctFirsts(pairs)
    requires forall i :: 0 <= i < |pairs| ==> pairs[i].0 !in before
    requires after == before[pairs[0].0 := Str(pairs[0].1)]
    ensures DistinctFirsts(pairs[1..])
    ensures forall i :: 0 <= i < |pairs| - 1 ==> pairs[1..][i] == pairs[i + 1]
    ensures forall i :: 0 <= i < |pairs| - 1 ==> pairs[1..][i].0 !in after
    ensures after + PairsMap(pairs[1..]) == before + PairsMap(pairs)
  {
    var rest := pairs[1..];
    assert forall i :: 0 <= i < |rest| ==> rest[i] == pairs[i + 1];
    PairsMapLacks(rest, pairs[0].0);
    Maps.RebindLeft(before, PairsMap(rest), pairs[0].0, Str(pairs[0].1));
  }

  /** Pairs that mirror a chain cell by cell re-insert to the chain's map. */
  lemma {:induction false} PairsMapMirrors(pairs: seq<(string, Option<string>)>, c: Chains.Chain)
    requires |pairs| == |c|
    requires forall i :: 0 <= i < |c| ==> pairs[i].0 == c[i].key && Str(pairs[i].1) == c[i].value
    ensures PairsMap(pairs) == Chains.AsMap(c)
    decreases |c|
  {
    if c != [] {
      assert forall i :: 0 <= i < |c| - 1 ==> pairs[1..][i] == pairs[i + 1] && c[1..][i] == c[i + 1];
      PairsMapMirrors(pairs[1..], c[1..]);
    }
  }

  /** What `resize` extracts mirrors the table's cells one by one. */
  lemma ExtractMirrors(t: Table)
    requires WellFormed(t)
    ensures |Extract(t)| == |Flat(t.buckets)|
    ensures forall i :: 0 <= i < |Extract(t)| ==>
              Extract(t)[i].0 == Flat(t.buckets)[i].key && Str(Extract(t)[i].1) == Flat(t.buckets)[i].value
    ensures t.kind == SetKind ==> forall i :: 0 <= i < |Extract(t)| ==> Extract(t)[i].1.None?
  {
    if t.kind == SetKind {
      FlatNulls(t.buckets, 0, t.capacity);
    }
  }

  /** What `resize` extracts re-inserts to exactly the table's contents. */
  lemma ExtractFacts(t: Table)
    requires WellFormed(t)
    ensures |Extract(t)| == t.size
    ensures DistinctFirsts(Extract(t))
    ensures t.kind == SetKind ==> forall i :: 0 <= i < |Extract(t)| ==> Extract(t)[i].1.None?
    ensures PairsMap(Extract(t)) == Contents(t)
  {
    var c := Flat(t.buckets);
    var pairs := Extract(t);
    ExtractMirrors(t);
    FlatDistinct(t.buckets, 0, t.capacity, t.kind);
    Chains.DistinctKeysPairwise(c);
    PairsMapMirrors(pairs, c);
  }

}

=== FILE: text.dfy ===
/** Optional values: `None` stands for JavaScript's `null`. */
module Options {

  datatype Option<+T> = None | Some(value: T)

}

/** Text helpers shared by the node, chain and table models. */
module Text {

  import opened Options

  /** The text form of a possibly-null argument, as JavaScript's `String()`
      gives it: a string stays itself and `null` becomes the four letters
      "null". Keys and values are modelled as strings already, so this is
      the only coercion that can change anything. */
  function Str(v: Option<string>): (r: string)
    ensures v.Some? ==> r == v.value
    ensures r == "null" <==> v == None || v == Some("null")
  {
    match v
    case Some(s) => s
    case None => "null"
  }

  /** `items.join(sep)`: the items in order with `sep` between neighbours. */
  function Join(items: seq<string>, sep: string): string
  {
    if |items| == 0 then ""
    else if |items| == 1 then items[0]
    else items[0] + sep + Join(items[1..], sep)
  }

  /** `w` occurs in `s`: some suffix of `s` starts with `w`. */
  predicate Occurs(w: string, s: string)
  {
    exists p :: 0 <= p <= |s| && w <= s[p..]
  }

  /** Every item occurs in the joined text. */
  lemma {:induction false} JoinShows(items: seq<string>, sep: string, i: int)
    requires 0 <= i < |items|
    ensures Occurs(items[i], Join(items, sep))
  {
    var s := Join(items, sep);
    if |items| == 1 {
      assert items[0] <= s[0..];
    } else if i == 0 {
      assert items[0] <= s[0..];
    } else {
      JoinShows(items[1..], sep, i - 1);
      var rest := Join(items[1..], sep);
      var q :| 0 <= q <= |rest| && items[i] <= rest[q..];
      var head := items[0] + sep;
      assert s == head + rest;
      assert s[|head| + q..] == rest[q..];
    }
  }

  /** Text that occurs in `s` occurs in `s` with anything around it. */
  lemma OccursInside(w: string, s: string, before: string, after: string)
    requires Occurs(w, s)
    ensures Occurs(w, before + s + after)
  {
    var q :| 0 <= q <= |s| && w <= s[q..];
    var whole := before + s + after;
    assert whole[|before| + q..] == s[q..] + after;
  }

  /** The joined text starts with the first item and, when there is more
      than one, the separator after it, and ends with the last item. */
  lemma {:induction false} JoinFrame(items: seq<string>, sep: string)
    requires |items| >= 1
    ensures items[0] <= Join(items, sep)
    ensures |items| >= 2 ==> items[0] + sep <= Join(items, sep)
    ensures var r, last := Join(items, sep), items[|items| - 1];
      |r| >= |last| && r[|r| - |last|..] == last
  {
    if |items| >= 2 {
      JoinFrame(items[1..], sep);
      var rest := Join(items[1..], sep);
      assert Join(items, sep) == items[0] + sep + rest;
      assert items[1..][|items| - 2] == items[|items| - 1];
    }
  }

  /** Text without the character `c`, joined by a separator without it,
      has no `c`. */
  lemma {:induction false} JoinAvoids(items: seq<string>, sep: string, c: char)
    requires forall i :: 0 <= i < |items| ==> c !in items[i]
    requires c !in sep
    ensures c !in Join(items, sep)
  {
    if |items| >= 2 {
      JoinAvoids(items[1..], sep, c);
      assert Join(items, sep) == items[0] + sep + Join(items[1..], sep);
    }
  }

  /** Two items are joined by one separator. */
  lemma JoinTwo(x: string, y: string, sep: string)
    ensures Join([x, y], sep) == x + sep + y
  {
    assert [x, y][1..] == [y];
  }

}

/** Facts about maps combined with `+`, where the right operand wins. */
module Maps {

  /** A map assembled from three parts, `a + (m + b)`, in which the middle
      part `m` is rebound at `k`, while the winning part `b` lacks `k`, is the
      whole rebound at `k`. */
  lemma RebindMiddle<K, V>(whole: map<K, V>, whole': map<K, V>,
                           a: map<K, V>, m: map<K, V>, b: map<K, V>, k: K, v: V)
    requires whole == a + (m + b) && whole' == a + (m[k := v] + b)
    requires k !in b
    ensures whole' == whole[k := v]
    ensures k in whole <==> k in a || k in m
  {
  }

  /** The same whole with `k` dropped from the middle part, when no other
      part holds `k`, is the whole without `k`. */
  lemma DropMiddle<K, V>(whole: map<K, V>, whole': map<K, V>,
                         a: map<K, V>, m: map<K, V>, b: map<K, V>, k: K)
    requires whole == a + (m + b) && whole' == a + ((m - {k}) + b)
    requires k !in a && k !in b
    ensures whole' == whole - {k}
  {
  }

  /** Dropping the middle entry `k := v` of a whole, when no other part
      holds `k`, is the whole without `k`. */
  lemma DropEntry<K, V>(whole: map<K, V>, whole': map<K, V>, a: map<K, V>, b: map<K, V>, k: K, v: V)
    requires whole == a + (map[k := v] + b) && whole' == a + b
    requires k !in a && k !in b
    ensures whole' == whole - {k}
  {
  }

  /** Binding a key on the left, when the right part lacks it, binds it in
      the union as binding it on the right would. */
  lemma RebindLeft<K, V>(a: map<K, V>, b: map<K, V>, k: K, v: V)
    requires k !in b
    ensures a[k := v] + b == a + b[k := v]
  {
  }

  /** Binding a key on the left of a union is putting a singleton between
      the two parts. */
  lemma BindAsMiddle<K, V>(a: map<K, V>, b: map<K, V>, k: K, v: V)
    ensures a[k := v] + b == a + (map[k := v] + b)
  {
  }

  /** A key that only the middle part of `a + (m + b)` may hold is looked
      up in the middle part. */
  lemma MiddleLookup<K, V>(whole: map<K, V>, a: map<K, V>, m: map<K, V>, b: map<K, V>, k: K)
    requires whole == a + (m + b)
    requires k !in a && k !in b
    ensures k in whole <==> k in m
    ensures k in m ==> whole[k] == m[k]
  {
  }

  /** A map built from two distinct keys holds exactly those two. */
  lemma TwoKeyMap<K, V>(c: map<K, V>, x: K, u: V, y: K, v: V)
    requires x != y && c == map[x := u, y := v]
    ensures |c| == 2
    ensures forall k :: k in c <==> k == x || k == y
  {
    assert c.Keys == {x, y};
  }

  /** The empty map is neutral on either side of `+`. */
  lemma EmptyUnion<K, V>(m: map<K, V>)
    ensures map[] + m == m
  {
  }

  lemma UnionEmpty<K, V>(m: map<K, V>)
    ensures m + map[] == m
  {
  }

  /** Rebinding the only key of a singleton map gives the new singleton. */
  lemma RebindSingleton<K, V>(k: K, v: V, v': V)
    ensures map[k := v][k := v'] == map[k := v']
  {
  }

}
